=== FILE: README.md ===
# nflfanfare in Dafny

nflfanfare collects tweets about NFL games and lines them up with the games and
their plays. Most of it is scraping and database code. Under that code sits a
set of pure rules, and this project models those rules and proves what they
promise:

- **Game phases.** Each game is put in a lifecycle phase: pending, upcoming,
  starting, live, recent or historic. There are three classifiers:
  - `games._state` and `gamecenter.Game._status`, which are the same decision
    list;
  - `schedule.Schedule.game_status`, which is older, compares the pregame
    instant and has no "starting" phase.
- **Game window.** A post is attributed to a game inside a window that runs
  from an hour before kickoff to four hours after it.
- **Schedule pipeline.** Scraped Pro-Football-Reference CSV blocks are cleaned
  up, with a season-year fix and boxscore links. Team codes are translated for
  nflgame, completed games are recognised, and tweets are counted per team.
- **Play table.** The table is built from nflgame drives:
  - "END" plays are dropped and JAC is fixed to JAX;
  - PREGAME, HALFTIME and POSTGAME marker rows are added;
  - running home and away scores are computed.

  Around it sit the PFR play CSV and locations, NeuLion film links, WordNet
  tags, and the rule that pairs each PFR play with an nflgame play.
- **Tweets.** API and scraped tweets are normalised into stored records.
- **Teams.** A team is looked up by any of its names, which involves a column
  priority. The rest is the team's properties, a random hashtag and the sorted
  list of team ids.

## Conventions

- Instants are whole seconds (`Clock.Instant`). The source reads two clocks:
  `utcnow()` for most thresholds and the machine's local `now()` in the
  "pending" test. Every classifier takes both as the separate parameters `now`
  and `localNow`, and nothing assumes how far apart they are.
- Database collections are sequences of records. `find_one` is the first
  matching record in sequence order.
- A Mongo field that may be missing or null is a `Field<T>`: `Absent`, `Null`
  or `Value(t)`.
- A Python exception on a path the source does not guard is an `Err` of a
  `Result`, not a precondition.
- The following are parameters standing for code outside this model:
  - `sim` stands for the similarity ratio, which comes from nltk and difflib.
  - `teamOf` stands for `teamid_from_pfrid`.
  - `pick` stands for `random.choice`.

## Files

| file | module | what it holds |
|---|---|---|
| results.dfy | `Results` | `Option`, `Result`, `Field` |
| seqs.dfy | `Seqs` | filtering, first and last match, counting, subsequences |
| strings.dfy | `Strings` | the Python string operations the rules use (`split`, `join`, `replace`, `in`, `split()`, `lower`, `str`/`int` on naturals, ordering) |
| clock.dfy | `Clock` | time constants, phases, the game window |
| gamedocs.dfy | `GameDocs` | the stored score-strip game |
| games.dfy | `Games` | `_state`, the `games(state)` filter, `Game` lookup, tweet counts, colours |
| gamecenter.dfy | `Gamecenter` | week table, kickoff text, fetch plan, `_status`, `_pending`, `_spawn` |
| schedule.dfy | `Schedule` | CSV clean-up, season year, boxscore links, nflgame query, `is_complete`, `game_status`, attribution, tweet counts |
| plays.dfy | `Plays` | play table, JAC fixes, markers, running scores, PFR CSV and locations, NeuLion links, WordNet tags, play matching |
| tweet.dfy | `Tweets` | `Tweet` and `Scrape` normalisation |
| teams.dfy | `Teams` | team lookup, properties, random hashtag, team ids |
| variants.dfy | `Variants` | how the two phase classifiers agree and differ |

## Model

| member | source | states |
|---|---|---|
| Clock.GameWindow | nflfanfare/gamecenter.py:329-334 | pregame lies before kickoff and postgame after it. The window is always five hours long, and pregame is exactly one hour before kickoff |
| Clock.GameWindowInjective | nflfanfare/schedule.py:428-433 | two games have the same window exactly when they have the same kickoff |
| Clock.PhaseNameInjective | nflfanfare/games.py:39-55 | distinct phases are stored under distinct names |
| GameDocs.FindGame | nflfanfare/gamecenter.py:243-252 | the result is the first stored game with the id. It is None exactly when no stored game has that id |
| Games.State | nflfanfare/games.py:28-57 | for each phase, an if-and-only-if on (start, now, localNow): historic iff start < now − 7d; recent iff now − 7d < start < now − 4h; live iff now − 4h < start < now; starting iff now < start < now + 15min; upcoming iff now + 15min ≤ start < now + 1h; pending iff start is after local now and either start is one of the three gap instants or start ≥ now + 1h |
| Games.Table | nflfanfare/games.py:7-17 | an empty collection raises, because the frame has no `scheduled` column. Otherwise there is one row per stored game, in collection order, carrying its id, eid, start and the state `_state` gives it |
| Games.SelectGames | nflfanfare/games.py:7-25 | an empty collection raises whatever the argument. A falsy argument returns the whole table. Otherwise the result is the rows whose state is among the accepted names: every kept row is accepted, every accepted row is kept, and the table order is preserved |
| Games.OneStateIsSingletonList | nflfanfare/games.py:21-24 | a single name filters exactly like the one-element list holding it |
| Games.EmptyNameSelectsAll | nflfanfare/games.py:20-24 | the empty string is falsy and selects every game, while the list [""] selects none (both raise on an empty collection) |
| Games.LookupGame | nflfanfare/games.py:93-108 | an empty collection raises through `games()`. Otherwise a game is found iff some game has the query as its eid or gameid. An eid match takes precedence, and the first game with that eid is returned. Otherwise the first game with that gameid is returned |
| Games.GroupCount | nflfanfare/games.py:128-130 | a count is defined exactly when one group row belongs to the team, and it is that row's count |
| Games.TweetCount | nflfanfare/games.py:110-132 | (0, 0) when the game has no tweets. Otherwise it succeeds iff both teams have a group row, and the counts come from those rows |
| Games.PickColors | nflfanfare/games.py:134-158 | fails exactly when a team is missing or has fewer than two colours. The home team keeps its first two colours, and the away colours are taken from the away team's first two. If those two differ, neither away colour equals the home colour in the same slot |
| Games.AwayColorsCanCoincide | nflfanfare/games.py:141-155 | with home (red, blue) and away (red, green), the away team gets green twice |
| Games.Describe | nflfanfare/games.py:63-91 | a found game is described exactly when its tweet counts and colours are, and a count failure is reported as such. The description keeps the document, its pregame is an hour before kickoff and its postgame four hours after, its state is `_state` of the kickoff, and its counts and colours are those `_tweet_count` and `_colors` give; a game with no tweets has zero counts |
| Games.DescribedLiveWithinWindow | nflfanfare/games.py:77-82 | a described game is live exactly while the clock is strictly between its kickoff and its postgame instant |
| Gamecenter.Range | nflfanfare/gamecenter.py:31-33 | Python's range: the consecutive integers from lo up to but excluding hi |
| Gamecenter.Weeks | nflfanfare/gamecenter.py:29-34 | PRE holds weeks 1–4, REG 1–17 and POST 18–22, each listed in increasing order |
| Gamecenter.WeekNumbering | nflfanfare/gamecenter.py:29-34 | no postseason week number is also a preseason or regular-season week, and every preseason week number is also a regular-season one |
| Gamecenter.DatePart | nflfanfare/gamecenter.py:100 | the eid without its last two characters, or empty for an eid shorter than two characters |
| Gamecenter.DatePartOfEid | nflfanfare/gamecenter.py:100 | a date followed by a two-character game number gives the date back |
| Gamecenter.KickoffText | nflfanfare/gamecenter.py:99-105 | the text is the date part, a blank and the clock time, then a meridiem. It ends in " AM" exactly when the time is "9:30", and in " PM" otherwise |
| Gamecenter.PlanWeeks | nflfanfare/gamecenter.py:133-146 | the pairs requested for one season type are exactly its weeks that pass the fetch test |
| Gamecenter.FetchPlan | nflfanfare/gamecenter.py:124-150 | with the week test read as an integer comparison, a (season type, week) pair is requested iff the week is in that type's table and either (the latest game has that type and an earlier week) or (the type is POST and the latest game is in the past) |
| Gamecenter.FetchPlanRequestsLaterWeeks | nflfanfare/gamecenter.py:136-138 | every later week of the latest game's season type is requested |
| Gamecenter.FetchPlanAsWritten | nflfanfare/gamecenter.py:133-145 | with the stored week being text, only postseason weeks are requested, and all of them exactly when the latest game is in the past |
| Gamecenter.FetchPlanAsWrittenMissesNextWeek | nflfanfare/gamecenter.py:136-138 | while the latest regular-season game lies ahead, the code as written requests nothing, whereas the intended test requests the next week |
| Gamecenter.FetchStaysInSeasonType | nflfanfare/gamecenter.py:137-138 | while the latest game is not in the past, only later weeks of its own season type are requested |
| Gamecenter.PostseasonRefetched | nflfanfare/gamecenter.py:141-145 | once the latest game is in the past, every postseason week is requested |
| Gamecenter.Status | nflfanfare/gamecenter.py:336-366 | None without game info. With game info, it is the same answer as `games._state` for every start, now and localNow |
| Gamecenter.GameStatus | nflfanfare/gamecenter.py:225-241 | building a `Game` fails exactly when no stored game has the id. Otherwise its status is `_state` of the stored start |
| Gamecenter.TrackAll | nflfanfare/gamecenter.py:387 | one status per row, in order. It succeeds exactly when every row's game is stored |
| Gamecenter.PendingGames | nflfanfare/gamecenter.py:380-389 | an empty strip fails. Otherwise it succeeds iff every non-final game is stored. The answer holds exactly the non-final strip games, one per game and in strip order, each carrying its `_state` |
| Gamecenter.PendingGamesComplete | nflfanfare/gamecenter.py:383-387 | every non-final strip game appears in the answer |
| Gamecenter.Spawn | nflfanfare/gamecenter.py:391-405 | it fails exactly when a live or starting game is not stored. Otherwise it returns one game id per live or starting row whose document has no `updating` key, in strip order and nothing else |
| Gamecenter.SpawnAfterPendingSucceeds | nflfanfare/gamecenter.py:395-402 | `_spawn` never fails on what `_pending` returns |
| Schedule.DataLines | nflfanfare/schedule.py:56-61 | the kept lines are exactly the non-empty lines that do not start with ',' and do not contain the header word, in input order |
| Schedule.SplitEmit | nflfanfare/schedule.py:57-62 | the emitted text, split on newlines, gives each prefixed line followed by one final empty piece |
| Schedule.CleanCsv | nflfanfare/schedule.py:56-62 | read back line by line, the output is exactly the data lines of the input, prefixed, in order |
| Schedule.ScheduleCsv | nflfanfare/schedule.py:101-107 | read back line by line, the output is exactly "year," followed by each data line, where lines mentioning "Week" are dropped |
| Schedule.CalendarYear | nflfanfare/schedule.py:246-247 | the calendar year is the season year or the one after, and it is the one after exactly when the month is before July |
| Schedule.CalendarYearRoundTrip | nflfanfare/schedule.py:246-247 | for every month, the year fix and the inverse that recovers the season undo each other |
| Schedule.PadTwo | nflfanfare/schedule.py:116-117 | a one-character text gets a leading '0', and any other text is unchanged |
| Schedule.BoxscoreLink | nflfanfare/schedule.py:113-119 | the link starts with the boxscore base and the year, and ends with '0', the PFR id and ".htm" |
| Schedule.PadTwoParses | nflfanfare/schedule.py:116-117 | a month or day below 100 becomes two digits that read back as that number |
| Schedule.BoxscoreLinkDecodes | nflfanfare/schedule.py:113-119 | for a four-digit year, the year, month and day sit at fixed positions and read back, and the team part follows them |
| Schedule.NflgameCode | nflfanfare/schedule.py:182-186 | JAX becomes JAC, and every other team code is kept |
| Schedule.NflgameInfoQuery | nflfanfare/schedule.py:179-198 | an all-digit week asks for that numbered week, and any other week asks for the postseason. Both teams are translated |
| Schedule.FindScheduled | nflfanfare/schedule.py:406 | the result has the id and is stored. It is None iff no stored game has that id |
| Schedule.IsComplete | nflfanfare/schedule.py:331-339 | true iff the first stored game with the id has a non-null end time |
| Schedule.GameStatus | nflfanfare/schedule.py:475-493 | for each phase, an if-and-only-if on (start, now, localNow) over pregame = start − 1h: historic iff pregame < now − 7d; recent iff now − 7d < pregame and start + 4h < now; live iff now − 4h < start < now + 1h; upcoming iff now < pregame < now + 1h; pending iff pregame is after local now and either a gap instant or pregame ≥ now + 1h. "starting" never occurs |
| Schedule.GameStatusOf | nflfanfare/schedule.py:475-479 | it fails for an unknown game, for a game whose start time is missing or null, and for a game whose start time is the text `start_time` produces. It answers exactly when the stored start is a date, and then gives that start's phase |
| Schedule.GameIdFromTeamAndTime | nflfanfare/schedule.py:435-461 | the aggregation fails iff some stored game, of any team, has a text start time, since `$project` computes every window before `$match`. Otherwise the answer is the first matching game's id |
| Schedule.FirstMatchedId | nflfanfare/schedule.py:450-466 | an id is only returned from the first matching game that has a gameid key. There is no id when no game matches, and there is one when that first game's id is not null |
| Schedule.AttributionWindow | nflfanfare/schedule.py:446-456 | a post by a playing team is attributed iff it falls after pregame and no later than postgame. Pregame itself is excluded and postgame is included |
| Schedule.GameTweetCounts | nflfanfare/schedule.py:495-508 | it fails iff the game is unknown. Each team's count is the number of the game's tweets for that team whose score is not 0, and the total is their sum |
| Schedule.CountsAfterTweet | nflfanfare/schedule.py:500-505 | one more stored tweet adds one to the count of each team it is scored for and nothing to the other |
| Schedule.UncountedTweetsIgnored | nflfanfare/schedule.py:501-504 | a tweet with score 0, or one from another game, changes no count |
| Plays.ScoreIncrease | nflfanfare/plays.py:194-208 | at most 6 points. It is positive iff the note is one of the scoring notes |
| Plays.ScoreIncreaseTable | nflfanfare/plays.py:194-208 | TD 6, FG 3, 2PS 2, SAF 2, XP 1, and any other note 0 |
| Plays.TeamPointsAppend | nflfanfare/plays.py:182-188 | points over consecutive stretches of the table add up |
| Plays.TeamPointsMonotone | nflfanfare/plays.py:182-188 | a team's points never decrease along the table |
| Plays.TeamPointsStep | nflfanfare/plays.py:183-188 | a row adds its increment only to the team it credits |
| Plays.RunningScores | nflfanfare/plays.py:177-190 | both score columns are as long as the table. The home (away) score at row i is the sum of the increments of rows 0..i credited to the home (away) team. Both columns never decrease, and a row crediting neither team leaves both unchanged |
| Plays.DriveRows | nflfanfare/plays.py:123-137 | a row comes from a drive iff it is one of the drive's plays that is not an "END" play. There is exactly one row per kept play, in the drive's play order |
| Plays.FlattenDrives | nflfanfare/plays.py:121-139 | a row is in the table iff it comes from a non-"END" play of a numbered drive. The current-drive entry contributes nothing |
| Plays.FlattenDrivesAppend | nflfanfare/plays.py:121-137 | the table of two consecutive lists of drives is the first list's table followed by the second's |
| Plays.FlattenDrivesExtend | nflfanfare/plays.py:121-137 | one more drive appends exactly its own rows: none for the current-drive entry, its kept plays' rows for a numbered drive |
| Plays.FlattenedRowsArePlays | nflfanfare/plays.py:121-126 | every row carries its drive, a numeric quarter and a description without "END" |
| Plays.FixTeam | nflfanfare/plays.py:142 | JAC becomes JAX, every other team is kept, and JAC never comes out |
| Plays.FixText | nflfanfare/plays.py:143-146 | no "JAC" remains and the length is kept. A text without "JAC" is unchanged |
| Plays.FixTextIsReplace | nflfanfare/plays.py:143-146 | the guarded replacement equals the unguarded `replace` |
| Plays.NoJacAfterReplace | nflfanfare/plays.py:143-144 | replacing "JAC" by "JAX" cannot create a new "JAC" |
| Plays.FixRow | nflfanfare/plays.py:141-146 | the team, description and yard line hold no JAC and keep their lengths. Every other column is unchanged |
| Plays.FixRowNoJac | nflfanfare/plays.py:141-146 | a row with no JAC anywhere is left alone |
| Plays.FixTeamUndoesNflgameCode | nflfanfare/plays.py:142 | the play fix undoes the schedule's JAX→JAC translation |
| Plays.MarkedTableLayout | nflfanfare/plays.py:154-173 | in a marked table, PREGAME is first and POSTGAME last. The two HALFTIME rows sit between the front and back parts, and both parts are kept in place |
| Plays.InsertMarkers | nflfanfare/plays.py:154-173 | it succeeds iff the table has a quarter-2 play and a quarter-3 play. PREGAME comes first and POSTGAME last. Rows up to the last quarter-2 play come next, then 'halfst' and 'halfend', then the rows from the first quarter-3 play |
| Plays.HalftimeBoundary | nflfanfare/plays.py:148-167 | on a table ordered by quarter, the first quarter-3 play directly follows the last quarter-2 play |
| Plays.FilterMarkedTable | nflfanfare/plays.py:154-173 | dropping the marker rows gives back the plays |
| Plays.PointsOfMarkedTable | nflfanfare/plays.py:170-188 | marker rows add no points |
| Plays.MarkersAtBoundary | nflfanfare/plays.py:159-167 | when the two quarters meet, the markers add four rows and no points, and dropping them gives back the table |
| Plays.MarkersOnOrderedTable | nflfanfare/plays.py:148-173 | on a table sorted by quarter with plays in both quarters, marking adds exactly four rows. No play is lost or repeated, and final scores are unchanged |
| Plays.PlaysCsv | nflfanfare/plays.py:79-86 | read back line by line, the output is exactly the non-empty lines that do not start with ',' and do not mention "Quarter", in order |
| Plays.FixLocation | nflfanfare/plays.py:32-37 | a location is fixed iff it has at least two words |
| Plays.FixLocationOfPair | nflfanfare/plays.py:32-37 | "pfrid yard" becomes the team id of the lower-cased pfrid, a blank and the yard. This splits back into the id and the yard |
| Plays.NeulionPad | nflfanfare/plays.py:280-281 | the result is at least two digits and reads back as the number. It is exactly two digits below 100 |
| Plays.NeulionPadIsBoxscorePad | nflfanfare/plays.py:280-281 | the film link pads months and days exactly as the boxscore link does |
| Plays.NeulionUrl | nflfanfare/plays.py:277-288 | the link starts with the NeuLion base and the year, and ends with gameid_play/pc/gameid_play_1600.mp4 |
| Plays.NeulionUrlDecodes | nflfanfare/plays.py:283-284 | for a four-digit year, the year, month and day sit at fixed positions and read back |
| Plays.WordnetPos | nflfanfare/plays.py:447-459 | the word is kept. A tag starting with J gives ADJ, V gives VERB and R gives ADV, and anything else gives NOUN |
| Plays.ParseClock | nflfanfare/plays.py:497-500 | a clock is readable iff it has a ':' and the field after it is a nonempty digit string. It then yields the minutes text before the ':' and the number that field spells |
| Plays.ParseClockOfText | nflfanfare/plays.py:497-500 | minutes, ':' and any digit string read back as those minutes and the digits' number, leading zeros included |
| Plays.ParseClockOfClock | nflfanfare/plays.py:497-500 | "minutes:seconds" reads back as those minutes and seconds, whether the seconds are written plainly or zero-padded ("12:07") |
| Plays.ParseClockNeedsColon | nflfanfare/plays.py:497-500 | a clock without ':' cannot be read |
| Plays.BestIsUnique | nflfanfare/plays.py:507-510 | the matching rule picks at most one play |
| Plays.BestMatch | nflfanfare/plays.py:491-510 | it fails iff some same-quarter, same-down pair has an unreadable clock, or is close but lacks a description. Otherwise the pick is the earliest candidate of greatest positive similarity, or none when no candidate scores above 0 |
| Plays.MatchPlays | nflfanfare/plays.py:483-512 | one pick per PFR play, each the best by that rule. It succeeds iff no pair fails |
| Tweets.StripQuotes | nflfanfare/tweet.py:20 | no backslash or quote remains. Every other character keeps its count and order, and a text without them is unchanged |
| Tweets.StripQuotesIdempotent | nflfanfare/tweet.py:27 | stripping twice equals stripping once |
| Tweets.OptionalLocation | nflfanfare/tweet.py:21-22 | the location is None iff it is missing or empty, and is otherwise unchanged |
| Tweets.JoinOrNone | nflfanfare/tweet.py:29-32 | the result is None iff there are no texts |
| Tweets.JoinOrNoneSplits | nflfanfare/tweet.py:29-30 | texts without commas split back out of the joined field |
| Tweets.FromApi | nflfanfare/tweet.py:10-37 | the name and text are the originals with the quote characters removed, hence quote-free subsequences. The screen name, time zone, image, language and ids are copied. The location follows the empty-string rule, hashtags and mentions are their comma joins or None iff there are none, and retweeted iff the payload has a retweeted status |
| Tweets.ApiHashtagsSplit | nflfanfare/tweet.py:29-30 | the record's hashtag field splits back into the tweet's hashtags when none holds a comma |
| Tweets.Texts | nflfanfare/tweet.py:70-73 | the texts of the flagged parts, one per flagged part and in part order. Every flagged part's text is present, every text comes from a flagged part, and the list is empty iff no part is flagged |
| Tweets.FlaggedTexts | nflfanfare/tweet.py:70-73 | a list holding the flagged parts' texts index by index holds each flagged text and nothing else |
| Tweets.BannerUserId | nflfanfare/tweet.py:59-60 | the id exists iff the URL has at least five '/'-segments, and it contains no '/' |
| Tweets.BannerUserIdOf | nflfanfare/tweet.py:59-60 | the segment after scheme://host/dir/ is read back |
| Tweets.FromScrape | nflfanfare/tweet.py:51-74 | it fails iff a banner URL is present but too short. The user id is None without a banner URL. Screen name, display name, location, avatar, text, language and the retweet flag are copied, and the time zone is None. Hashtags and mentions are the comma-joined flagged texts in part order, "" when none is flagged |
| Tweets.ScrapedHashtagsSplit | nflfanfare/tweet.py:70-71 | hashtag texts without commas split back out of the stored field |
| Teams.FullName | nflfanfare/teams.py:61 | city, then a blank, then nickname |
| Teams.ChosenColumn | nflfanfare/teams.py:63-78 | None iff no column holds the query. Otherwise the chosen column holds it and no later column in the priority order does |
| Teams.Info | nflfanfare/teams.py:58-84 | fails iff the teams collection is empty, since the frame then has no city column. Otherwise None iff no column holds the query, else the first team whose chosen column equals the query |
| Teams.NicknameWins | nflfanfare/teams.py:76-78 | a nickname query always finds a team with that nickname |
| Teams.Team | nflfanfare/teams.py:24-105 | fails iff the teams collection is empty, or a team matches while no stored team has hashtags (the frame then lacks that column). With no match every property is None. With a match each property is the found team's field, the full name is city, a blank and nickname, and hashtags are NaN when only other teams have them |
| Teams.FullNameSplits | nflfanfare/teams.py:96-97 | the full name splits back into the city when the city has no blank |
| Teams.RandomHashtag | nflfanfare/teams.py:107-112 | fails iff the hashtags are NaN. None iff there is no match or the list is empty, and otherwise one of the team's hashtags |
| Teams.FoundTeamHashtags | nflfanfare/teams.py:105-112 | a found team's hashtags can be drawn from iff its own document has the key |
| Teams.EveryHashtagReachable | nflfanfare/teams.py:110-111 | every hashtag of the team can be chosen |
| Teams.SortedDistinct | nflfanfare/teams.py:10-12 | a strictly sorted list repeats nothing |
| Teams.InsertSorted | nflfanfare/teams.py:10-12 | inserting keeps the list strictly sorted and adds exactly the new id |
| Teams.TeamIds | nflfanfare/teams.py:7-12 | strictly increasing, and an id is listed iff some team has it |
| Teams.SortedUnique | nflfanfare/teams.py:10-12 | two strictly sorted lists with the same elements are equal |
| Teams.TeamIdsIgnoreOrder | nflfanfare/teams.py:7-12 | the id list does not depend on the order in which teams are stored |
| Variants.BothHistoric | nflfanfare/schedule.py:484-485 | a game kicking off more than a week ago is historic in both classifiers |
| Variants.ScheduleHistoricAnHourEarlier | nflfanfare/schedule.py:484-487 | in the week's last hour, the schedule already says historic while the games table says recent |
| Variants.BothLive | nflfanfare/schedule.py:488-489 | a game kicked off less than four hours ago is live in both |
| Variants.ScheduleLiveBeforeKickoff | nflfanfare/schedule.py:488-491 | in the hour before kickoff the schedule says live. The games table says starting in the last 15 minutes and upcoming before that |
| Variants.KickoffInstantUnclassified | nflfanfare/games.py:45-57 | at the exact kickoff instant `_state` says pending if the local clock is behind, and has no phase otherwise |
| Variants.LocalClockAheadLosesPending | nflfanfare/games.py:50-55 | a game at least an hour away gets no phase from `_state` once the local clock is past kickoff. The same holds for `game_status` once the local clock is past pregame |
| Variants.LocalClockAheadExample | nflfanfare/schedule.py:490-493 | a game two hours away, with the local clock three hours ahead, has no phase in either classifier |
| Variants.WeekBoundaryUnclassified | nflfanfare/games.py:34-57 | a game starting exactly one week ago has no phase when the clocks differ by less than a day. `game_status` has the same hole an hour later |

## Left out

- Scraping and network: PhantomJS, BeautifulSoup, `requests`, nflgame, nflvid and the Twitter API. This covers `pfr_game_info`, `_get_week`, `_get_update`, `_get_feed`, `_parse_feed`, `download_video` and `download_plays`. These are I/O against services outside the model. The CSV clean-up starts from the scraped text, and the nflgame lookup stops at the query it would issue.
- Database writes and bookkeeping are effects on MongoDB, not rules. These are `add_game`, `add_pfr_info`, `update_db_schedule`, `update_game_tweet_counts`, `update_db_tweet_counts`, `add_plays`, `has_play`, `film_info_togo`, `has_film_info`, `add_film_info`, `mark_matched`, `is_matched`, `_add_schedule`, `Game._update` and `in_db`.
- `_last_game` sorts by start time and takes the latest game. The model takes that game as the `last` parameter of `FetchPlan`. With an empty games collection `list(result)[0]` raises `IndexError` (gamecenter.py:219), so a caller of the model must supply a stored game.
- The sort in `nflgame_plays` by drive, quarter, descending clock and play id (plays.py:148-152) is not modelled, because it orders on mixed text and number columns. `InsertMarkers` and `RunningScores` take the table as sorted. `QuartersOrdered` is what the marker lemmas assume of the sorted table: quarters never decrease. Because the sort key starts with the drive, that holds only when drive numbers follow game time, which the feed's numbering is taken to do; the model does not prove it from the sort.
- Gamecenter.FetchPlan: weeks are integers here, and the week test is the intended integer comparison. The comparison as written is modelled separately by `FetchPlanAsWritten` (see Findings).
- Gamecenter.WeekNumbering: the week table's three ranges are not pairwise disjoint. Preseason weeks 1–4 reuse regular-season numbers, so the lemma states only the disjointness that holds (POST against PRE and REG).
- Plays.ParseClock: Python's `int` also accepts a sign or surrounding blanks in the seconds field. The model reads only plain digit strings and treats anything else as an unreadable clock.
- Time zones and parsing are library calls, and a kickoff is an instant here; a stored schedule start time is either an instant or opaque text (`Schedule.StartTime`), and the text is never parsed. This covers the `pytz` conversions (`to_eastern`, `start_time`, the Eastern/UTC step of `_parse_games`) and `strptime` (`postedtime`, the month names of the schedule CSV). `KickoffText` stops at the text that would be parsed.
- The aggregation in `gameid_from_team_and_time` computes in milliseconds on Mongo dates. Here the same one-hour and four-hour offsets are in seconds.
- `int(d)` on drive keys: a key is either the current-drive pointer or a drive number (`DriveKey`). Other non-numeric keys, which would raise, are not represented.
- The following are calls into libraries whose code is not part of this model, and the scoring is floating point. They appear as parameters or are absent.
  - The similarity `lemma_match` (nltk, difflib) is the `sim` parameter of `BestMatch`.
  - VADER sentiment scores and their rounding are absent. The stored compound score appears only as an optional value in `Schedule.TweetDoc`.
- `teamid_from_pfrid`, `teamid_from_name` and `pfrid_from_teamid` live in team.py, which is not part of this model. `FixLocation` takes the first as its `teamOf` parameter.
- Process control is effectful, long-running control flow. This covers `_monitor`, `subprocess.Popen` in `_spawn`, `sys.exit`, logging and the random sleep. `Spawn` returns the ids it would launch monitors for.
- `Bulk` in tweet.py, statistics.py, twitter.py, database.py, collector.py, app/ and the helper scripts are drivers, presentation or storage code.
- The home/away assignment from the `@` column in `completed_games_df` and the rest of its DataFrame reshaping are pandas plumbing. Of that function, only the season-year fix and the boxscore link are modelled.
- `postedtime` and `collectedtime` are left out of the tweet records. One is a `strptime` parse and the other a clock read.

## Findings

| source | as written | input that shows it | evidently intended | confidence | as-written member | corrected member |
|---|---|---|---|---|---|---|
| nflfanfare/gamecenter.py:137-138 | `last['week'] < week` compares the stored week, which is the score strip's `w` attribute text (gamecenter.py:90, 115), with an integer week; Python 2 orders every number before every string, so the test is false for every week and only the postseason test can request anything | the latest stored game is regular-season week 3 and its kickoff is still ahead: the code requests no week at all, where week 4 onward was meant (`Gamecenter.FetchPlanAsWrittenMissesNextWeek`) | compare week numbers, so that every later week of the latest game's season type is requested (`Gamecenter.FetchPlanRequestsLaterWeeks`) | medium; not executed | Gamecenter.FetchPlanAsWritten | Gamecenter.FetchPlan |

=== FILE: clock.dfy ===
/** Instants, durations and the game window shared by the three status
    classifiers.

    An instant is a whole number of seconds on one time line. The source works
    with naive `datetime` values taken from two different clocks: `utcnow()`
    for most thresholds and `now()` (the machine's local time) in the
    "pending" test. The model takes both as separate parameters, `now` and
    `localNow`, and never assumes how far apart they are. */
module Clock {

  type Instant = int

  const MINUTE: int := 60
  const HOUR: int := 60 * MINUTE
  const DAY: int := 24 * HOUR
  const WEEK: int := 7 * DAY

  /** How long before kickoff collection starts (`timedelta(hours=1)`). */
  const PREGAME_LEAD: int := HOUR
  /** How long after kickoff a game is considered over (`timedelta(hours=4)`). */
  const POSTGAME_LAG: int := 4 * HOUR

  /** Lifecycle phases a classifier can report; "no phase" is `None`. */
  datatype Phase = Pending | Upcoming | Starting | Live | Recent | Historic

  /** The string the source stores in its `state` / `status` columns. */
  function PhaseName(p: Phase): string {
    match p
    case Pending => "pending"
    case Upcoming => "upcoming"
    case Starting => "starting"
    case Live => "live"
    case Recent => "recent"
    case Historic => "historic"
  }

  lemma PhaseNameInjective(p: Phase, q: Phase)
    ensures PhaseName(p) == PhaseName(q) <==> p == q
  {
  }

  /** The pregame and postgame instants of a game. */
  datatype Window = Window(pregame: Instant, postgame: Instant)

  /** `pre_post_times`: collection opens an hour before kickoff and closes four
      hours after it. */
  function GameWindow(start: Instant): (w: Window)
    ensures w.pregame < start < w.postgame
    ensures w.postgame - w.pregame == 5 * HOUR
    ensures start - w.pregame == PREGAME_LEAD
  {
    Window(start - PREGAME_LEAD, start + POSTGAME_LAG)
  }

  /** Two games have the same window exactly when they have the same kickoff,
      so the window determines the start. */
  lemma GameWindowInjective(s: Instant, t: Instant)
    ensures GameWindow(s) == GameWindow(t) <==> s == t
  {
  }
}

=== FILE: gamecenter.dfy ===
/** `nflfanfare/gamecenter.py`: the score-strip schedule (week table, kickoff
    text, which weeks to fetch), the game-status classifier, and the rule that
    picks the games a monitor process is started for. */
module Gamecenter {
  import opened Results
  import opened Seqs
  import opened Strings
  import opened Clock
  import opened GameDocs
  import Games

  // ---------------------------------------------------------------------------
  // `Schedule.weeks`

  datatype SeasonType = Pre | Reg | Post

  /** The key under which the week table lists a season type, which is also the
      `gt` code stored in a game's `seasontype`. */
  function TypeName(st: SeasonType): string {
    match st
    case Pre => "PRE"
    case Reg => "REG"
    case Post => "POST"
  }

  /** Python's `range(lo, hi)`. */
  function Range(lo: int, hi: int): (r: seq<int>)
    ensures |r| == if lo <= hi then hi - lo else 0
    ensures forall k :: 0 <= k < |r| ==> r[k] == lo + k
    ensures forall x :: x in r <==> lo <= x < hi
    decreases hi - lo
  {
    if lo >= hi then [] else [lo] + Range(lo + 1, hi)
  }

  /** The weeks the schedule walks for each season type. */
  function Weeks(st: SeasonType): (r: seq<int>)
    ensures st == Pre ==> forall w :: w in r <==> 1 <= w <= 4
    ensures st == Reg ==> forall w :: w in r <==> 1 <= w <= 17
    ensures st == Post ==> forall w :: w in r <==> 18 <= w <= 22
    ensures forall i, j :: 0 <= i < j < |r| ==> r[i] < r[j]
  {
    match st
    case Pre => Range(1, 4 + 1)
    case Reg => Range(1, 17 + 1)
    case Post => Range(18, 22 + 1)
  }

  /** Postseason weeks are numbered after every regular-season week, so a week
      number names a postseason week or a pre/regular week, never both;
      preseason numbers reuse regular-season ones. */
  lemma WeekNumbering(w: int)
    ensures !(w in Weeks(Post) && w in Weeks(Reg))
    ensures !(w in Weeks(Post) && w in Weeks(Pre))
    ensures w in Weeks(Pre) ==> w in Weeks(Reg)
  {
  }

  // ---------------------------------------------------------------------------
  // `_parse_games`: the kickoff text

  /** `eid[:-2]`: the eid without its two-digit game number. */
  function DatePart(eid: string): (d: string)
    ensures |d| == if |eid| >= 2 then |eid| - 2 else 0
    ensures d == eid[..|d|]
  {
    if |eid| >= 2 then eid[..|eid| - 2] else ""
  }

  /** An eid is a date followed by a two-character game number; dropping the
      last two characters gives the date back. */
  lemma DatePartOfEid(date: string, number: string)
    requires |number| == 2
    ensures DatePart(date + number) == date
  {
    assert (date + number)[..|date|] == date;
  }

  /** The text parsed as a game's Eastern kickoff: date, a blank, the strip's
      clock time, and a meridiem. Only London games, listed at 9:30, are
      morning games. */
  function KickoffText(eid: string, t: string): (r: string)
    ensures HasPrefix(r, DatePart(eid) + " " + t)
    ensures |r| == |DatePart(eid)| + 1 + |t| + 3
    ensures HasSuffix(r, " AM") <==> t == "9:30"
    ensures HasSuffix(r, " PM") <==> t != "9:30"
  {
    var meridiem := if t == "9:30" then t + " AM" else t + " PM";
    var r := DatePart(eid) + " " + meridiem;
    assert r[..|DatePart(eid) + " " + t|] == DatePart(eid) + " " + t;
    assert r[|r| - 3..] == meridiem[|t|..];
    r
  }

  // ---------------------------------------------------------------------------
  // `_get_schedule`: which weeks to request

  /** The test for one (season type, week) pair, given the latest stored game:
      a later week of the same season type, or any postseason week once the
      latest game lies in the past. */
  predicate ShouldFetch(last: GameDoc, st: SeasonType, week: int, now: Instant) {
    (last.seasontype == TypeName(st) && last.week < week) ||
    (st == Post && last.scheduled < now)
  }

  function PlanWeeks(st: SeasonType, ws: seq<int>, last: GameDoc, now: Instant): (r: seq<(SeasonType, int)>)
    ensures forall p :: p in r <==> p.0 == st && p.1 in ws && ShouldFetch(last, st, p.1, now)
    decreases |ws|
  {
    if |ws| == 0 then []
    else
      var rest := PlanWeeks(st, ws[1..], last, now);
      assert ws == [ws[0]] + ws[1..];
      if ShouldFetch(last, st, ws[0], now) then [(st, ws[0])] + rest else rest
  }

  /** The (season type, week) pairs `_get_schedule` requests, with the week
      test read as the intended integer comparison. The source walks the keys
      of a dict, whose order Python 2 does not fix; the model lists PRE, REG,
      POST, and the contract speaks only of which pairs are requested. */
  function FetchPlan(last: GameDoc, now: Instant): (r: seq<(SeasonType, int)>)
    ensures forall st, w :: (st, w) in r <==> w in Weeks(st) && ShouldFetch(last, st, w, now)
  {
    PlanWeeks(Pre, Weeks(Pre), last, now) +
    PlanWeeks(Reg, Weeks(Reg), last, now) +
    PlanWeeks(Post, Weeks(Post), last, now)
  }

  /** Every later week of the latest game's season type is requested. */
  lemma FetchPlanRequestsLaterWeeks(last: GameDoc, now: Instant, st: SeasonType, w: int)
    requires last.seasontype == TypeName(st)
    requires w in Weeks(st) && last.week < w
    ensures (st, w) in FetchPlan(last, now)
  {
  }

  /** `_get_schedule` as written: the stored week is the strip's attribute
      text, and Python 2 orders every number before every string, so
      `last['week'] < week` is false for each integer week and only the
      postseason test can request anything. */
  function FetchPlanAsWritten(last: GameDoc, now: Instant): (r: seq<(SeasonType, int)>)
    ensures forall st, w :: (st, w) in r <==> st == Post && w in Weeks(Post) && last.scheduled < now
  {
    if last.scheduled < now then
      var ws := Weeks(Post);
      var r := seq(|ws|, k requires 0 <= k < |ws| => (Post, ws[k]));
      assert forall k :: 0 <= k < |ws| ==> r[k] == (Post, ws[k]);
      assert forall w :: w in ws ==> (Post, w) in r by {
        forall w | w in ws ensures (Post, w) in r {
          var k :| 0 <= k < |ws| && ws[k] == w;
          assert r[k] == (Post, w);
        }
      }
      r
    else []
  }

  /** The discrepancy: while the latest regular-season game lies ahead, the
      code as written requests nothing, whereas the intended test requests
      the following week. */
  lemma FetchPlanAsWrittenMissesNextWeek(last: GameDoc, now: Instant)
    requires last.seasontype == "REG" && 1 <= last.week < 17
    requires now <= last.scheduled
    ensures FetchPlanAsWritten(last, now) == []
    ensures (Reg, last.week + 1) in FetchPlan(last, now)
  {
  }

  /** The week test never crosses season types: while the latest game is not in
      the past, only later weeks of its own season type are requested. */
  lemma FetchStaysInSeasonType(last: GameDoc, now: Instant)
    requires now <= last.scheduled
    ensures forall p :: p in FetchPlan(last, now) ==> TypeName(p.0) == last.seasontype && last.week < p.1
  {
  }

  /** Once the latest stored game is in the past, every postseason week is
      requested again. */
  lemma PostseasonRefetched(last: GameDoc, now: Instant, w: int)
    requires last.scheduled < now
    requires 18 <= w <= 22
    ensures (Post, w) in FetchPlan(last, now)
  {
  }

  // ---------------------------------------------------------------------------
  // `Game._status`

  /** `Game._status`: no status without stored info; otherwise the same
      decision list as `games._state`, on the same two clocks. */
  function Status(info: Option<GameDoc>, now: Instant, localNow: Instant): (r: Option<Phase>)
    ensures info.None? ==> r.None?
    ensures info.Some? ==> r == Games.State(info.value.scheduled, now, localNow)
  {
    if info.Some? then
      var start := info.value.scheduled;
      var w := GameWindow(start);
      var oneweek := now - WEEK;
      var upcoming := now + HOUR;
      var starting := now + 15 * MINUTE;
      if start < oneweek then Some(Historic)
      else if start > oneweek && w.postgame < now then Some(Recent)
      else if start < now && w.postgame > now then Some(Live)
      else if start > now && start < starting then Some(Starting)
      else if start > now && start < upcoming then Some(Upcoming)
      else if start > localNow then Some(Pending)
      else None
    else None
  }

  // ---------------------------------------------------------------------------
  // `Collector._pending` and `Collector._spawn`

  /** One game of the live score strip: its id and quarter code (`q`). */
  datatype StripRow = StripRow(gameid: string, quarter: string)

  /** A non-final strip game with the status its stored document gives it. */
  datatype Tracked = Tracked(gameid: string, status: Option<Phase>)

  datatype CollectorError =
    | EmptySchedule                 // `_pending` reads a variable it never bound
    | UnknownGame(gameid: string)   // `Game(gameid)` indexes a missing document

  /** `Game(gameid).status`: constructing a `Game` for an id with no stored
      document fails before the status is computed. */
  function GameStatus(db: seq<GameDoc>, gameid: string, now: Instant, localNow: Instant): (r: Result<Option<Phase>, CollectorError>)
    ensures r.Err? <==> FindGame(db, gameid).None?
    ensures r.Ok? ==> r.value == Games.State(FindGame(db, gameid).value.scheduled, now, localNow)
  {
    var info := FindGame(db, gameid);
    if info.None? then Err(UnknownGame(gameid)) else Ok(Status(info, now, localNow))
  }

  function TrackAll(rows: seq<StripRow>, db: seq<GameDoc>, now: Instant, localNow: Instant): (r: Result<seq<Tracked>, CollectorError>)
    ensures r.Ok? <==> forall k :: 0 <= k < |rows| ==> FindGame(db, rows[k].gameid).Some?
    ensures r.Ok? ==> |r.value| == |rows|
    ensures r.Ok? ==> forall k :: 0 <= k < |rows| ==>
      r.value[k].gameid == rows[k].gameid &&
      r.value[k].status == Games.State(FindGame(db, rows[k].gameid).value.scheduled, now, localNow)
    decreases |rows|
  {
    if |rows| == 0 then Ok([])
    else
      match GameStatus(db, rows[0].gameid, now, localNow)
      case Err(e) => Err(e)
      case Ok(s) =>
        match TrackAll(rows[1..], db, now, localNow)
        case Err(e) =>
          assert !FindGame(db, rows[1..][0].gameid).Some? || exists k :: 0 <= k < |rows[1..]| && FindGame(db, rows[1..][k].gameid).None?;
          Err(e)
        case Ok(rest) => Ok([Tracked(rows[0].gameid, s)] + rest)
  }

  predicate NotFinal(row: StripRow) {
    row.quarter != "F"
  }

  /** `_pending`: the strip games that are not final, in strip order, each
      with its status. */
  function PendingGames(schedule: seq<StripRow>, db: seq<GameDoc>, now: Instant, localNow: Instant): (r: Result<seq<Tracked>, CollectorError>)
    ensures |schedule| == 0 ==> r == Err(EmptySchedule)
    ensures |schedule| > 0 ==>
      (r.Ok? <==> forall k :: 0 <= k < |schedule| && NotFinal(schedule[k]) ==> FindGame(db, schedule[k].gameid).Some?)
    ensures r.Ok? ==> |r.value| == |Filter(schedule, NotFinal)|
    ensures r.Ok? ==> forall i :: 0 <= i < |r.value| ==> r.value[i].gameid == Filter(schedule, NotFinal)[i].gameid
    ensures r.Ok? ==> forall t :: t in r.value ==>
      exists k :: 0 <= k < |schedule| && NotFinal(schedule[k]) && schedule[k].gameid == t.gameid &&
        t.status == Games.State(FindGame(db, t.gameid).value.scheduled, now, localNow)
  {
    if |schedule| == 0 then Err(EmptySchedule)
    else
      var open := Filter(schedule, NotFinal);
      var r := TrackAll(open, db, now, localNow);
      assert r.Ok? ==> forall t :: t in r.value ==> exists j :: 0 <= j < |open| && r.value[j] == t;
      r
  }

  /** No non-final strip game is left out of `_pending`'s answer. */
  lemma PendingGamesComplete(schedule: seq<StripRow>, db: seq<GameDoc>, now: Instant, localNow: Instant, k: nat)
    requires k < |schedule| && NotFinal(schedule[k])
    ensures var r := PendingGames(schedule, db, now, localNow);
      r.Ok? ==> exists i :: 0 <= i < |r.value| && r.value[i].gameid == schedule[k].gameid
  {
    var r := PendingGames(schedule, db, now, localNow);
    if r.Ok? {
      var open := Filter(schedule, NotFinal);
      assert schedule[k] in open;
      var i :| 0 <= i < |open| && open[i] == schedule[k];
      assert r.value[i].gameid == schedule[k].gameid;
    }
  }

  /** Phases during which a monitor is wanted. */
  predicate Monitored(status: Option<Phase>) {
    status == Some(Live) || status == Some(Starting)
  }

  /** A row for which `_spawn` starts a monitor: live or starting, with a
      stored document that has no `updating` key. */
  predicate StartsMonitor(db: seq<GameDoc>, row: Tracked) {
    Monitored(row.status) && FindGame(db, row.gameid).Some? && !FindGame(db, row.gameid).value.updating
  }

  /** `StartsMonitor` as a filter over the rows. */
  function Starters(db: seq<GameDoc>): Tracked -> bool {
    row => StartsMonitor(db, row)
  }

  /** `_spawn`: the ids of the live or starting games whose stored document has
      no `updating` key, one per such row, in strip order. Looking up a
      monitored game that has no document fails. */
  function Spawn(pending: seq<Tracked>, db: seq<GameDoc>): (r: Result<seq<string>, CollectorError>)
    ensures r.Ok? <==> forall k :: 0 <= k < |pending| && Monitored(pending[k].status) ==> FindGame(db, pending[k].gameid).Some?
    ensures r.Ok? ==> forall g :: g in r.value <==>
      exists k :: 0 <= k < |pending| && pending[k].gameid == g && Monitored(pending[k].status) &&
        !FindGame(db, g).value.updating
    ensures r.Ok? ==> |r.value| == |Filter(pending, Starters(db))|
    ensures r.Ok? ==> forall i :: 0 <= i < |r.value| ==> r.value[i] == Filter(pending, Starters(db))[i].gameid
    decreases |pending|
  {
    if |pending| == 0 then Ok([])
    else
      var row := pending[0];
      var rest := Spawn(pending[1..], db);
      var tail := Filter(pending[1..], Starters(db));
      assert Filter(pending, Starters(db)) == if StartsMonitor(db, row) then [row] + tail else tail;
      if !Monitored(row.status) then
        rest
      else
        var info := FindGame(db, row.gameid);
        if info.None? then Err(UnknownGame(row.gameid))
        else if rest.Err? then rest
        else if info.value.updating then rest
        else Ok([row.gameid] + rest.value)
  }

  /** Every game `_pending` returns has a stored document, so `_spawn` never
      fails on its output. */
  lemma SpawnAfterPendingSucceeds(schedule: seq<StripRow>, db: seq<GameDoc>, now: Instant, localNow: Instant)
    requires PendingGames(schedule, db, now, localNow).Ok?
    ensures Spawn(PendingGames(schedule, db, now, localNow).value, db).Ok?
  {
    var p := PendingGames(schedule, db, now, localNow).value;
    forall k | 0 <= k < |p| ensures FindGame(db, p[k].gameid).Some? {
      assert p[k] in p;
    }
  }
}

=== FILE: gamedocs.dfy ===
/** The game documents the score-strip collector stores in the `games`
    collection and that `games.py` reads back. Only the fields some modelled
    rule reads are kept. */
module GameDocs {
  import opened Results
  import opened Seqs
  import opened Clock

  /** One stored game.
      - `status` is the score strip's quarter code (`q`); `"F"` means final.
      - `week` is the week number of the strip the game came from.
      - `updating` records whether the key `updating` is present: a monitor
        process sets it while it follows the game. */
  datatype GameDoc = GameDoc(
    gameid: string,
    eid: string,
    seasontype: string,
    week: int,
    hometeam: string,
    awayteam: string,
    status: string,
    scheduled: Instant,
    updating: bool)

  /** `find_one({'gameid': gameid})`: the first stored game with that id. */
  function FindGame(db: seq<GameDoc>, gameid: string): (r: Option<GameDoc>)
    ensures r.Some? ==> r.value.gameid == gameid && r.value in db
    ensures r.None? <==> forall k :: 0 <= k < |db| ==> db[k].gameid != gameid
    ensures r.Some? ==>
      exists k :: 0 <= k < |db| && db[k] == r.value && forall j :: 0 <= j < k ==> db[j].gameid != gameid
  {
    var i := FindFirst(db, (d: GameDoc) => d.gameid == gameid);
    if i.Some? then Some(db[i.value]) else None
  }
}

=== FILE: games.dfy ===
/** `nflfanfare/games.py`: the game-state classifier used by the dashboard,
    the state filter over the games table, and the per-game summary
    (window, tweet counts, colours). */
module Games {
  import opened Results
  import opened Seqs
  import opened Clock
  import opened GameDocs

  /** The three instants where every strict comparison of `_state` fails:
      exactly one week ago, exactly four hours ago, and now. */
  predicate StateGap(start: Instant, now: Instant) {
    start == now - WEEK || start == now - POSTGAME_LAG || start == now
  }

  /** `_state`: the phase of a game that starts at `start`, when the UTC clock
      reads `now` and the local clock reads `localNow`. The last test reads the
      local clock, so "pending" holds only for games after local now. */
  function State(start: Instant, now: Instant, localNow: Instant): (r: Option<Phase>)
    ensures r == Some(Historic) <==> start < now - WEEK
    ensures r == Some(Recent) <==> now - WEEK < start < now - POSTGAME_LAG
    ensures r == Some(Live) <==> now - POSTGAME_LAG < start < now
    ensures r == Some(Starting) <==> now < start < now + 15 * MINUTE
    ensures r == Some(Upcoming) <==> now + 15 * MINUTE <= start < now + HOUR
    ensures r == Some(Pending) <==> localNow < start && (StateGap(start, now) || now + HOUR <= start)
  {
    var w := GameWindow(start);
    var oneweek := now - WEEK;
    var upcoming := now + HOUR;
    var starting := now + 15 * MINUTE;
    if start < oneweek then Some(Historic)
    else if start > oneweek && w.postgame < now then Some(Recent)
    else if start < now && w.postgame > now then Some(Live)
    else if start > now && start < starting then Some(Starting)
    else if start > now && start < upcoming then Some(Upcoming)
    else if start > localNow then Some(Pending)
    else None
  }

  // ---------------------------------------------------------------------------
  // The `games(state)` filter

  /** The `state` argument of `games`: omitted, one name, or a list of names. */
  datatype StateArg = NoFilter | OneState(name: string) | States(names: seq<string>)

  /** One row of the games table: the projected fields plus the computed state. */
  datatype StatedRow = StatedRow(gameid: string, eid: string, scheduled: Instant, state: Option<Phase>)

  /** Python truthiness of the argument: `None`, `""` and `[]` are false. */
  predicate Filters(arg: StateArg) {
    match arg
    case NoFilter => false
    case OneState(n) => |n| > 0
    case States(ns) => |ns| > 0
  }

  /** The names the filter accepts; a single string behaves as a one-element list. */
  function Accepted(arg: StateArg): seq<string> {
    match arg
    case NoFilter => []
    case OneState(n) => [n]
    case States(ns) => ns
  }

  /** Why `games()` raised: a frame built from no documents has no columns,
      so reading its `scheduled` column fails. */
  datatype TableError = NoScheduledColumn

  /** The table `games()` builds before filtering: every document with its
      state, in collection order. An empty collection raises. */
  function Table(docs: seq<GameDoc>, now: Instant, localNow: Instant): (r: Result<seq<StatedRow>, TableError>)
    ensures r.Err? <==> |docs| == 0
    ensures r.Ok? ==> |r.value| == |docs|
    ensures r.Ok? ==> forall k :: 0 <= k < |docs| ==>
      r.value[k].gameid == docs[k].gameid && r.value[k].eid == docs[k].eid &&
      r.value[k].scheduled == docs[k].scheduled && r.value[k].state == State(docs[k].scheduled, now, localNow)
  {
    if |docs| == 0 then Err(NoScheduledColumn)
    else
      Ok(seq(|docs|, k requires 0 <= k < |docs| =>
        StatedRow(docs[k].gameid, docs[k].eid, docs[k].scheduled, State(docs[k].scheduled, now, localNow))))
  }

  /** `state.isin(names)` for one row; a row without a state never matches. */
  predicate InStates(row: StatedRow, names: seq<string>) {
    row.state.Some? && PhaseName(row.state.value) in names
  }

  /** `games(state)`: the table, restricted to the rows whose state is accepted
      when the argument is truthy; an empty collection raises either way. */
  function SelectGames(docs: seq<GameDoc>, arg: StateArg, now: Instant, localNow: Instant): (r: Result<seq<StatedRow>, TableError>)
    ensures r.Err? <==> |docs| == 0
    ensures !Filters(arg) ==> r == Table(docs, now, localNow)
    ensures Filters(arg) && r.Ok? ==>
      var t := Table(docs, now, localNow).value;
      && IsSubsequence(r.value, t)
      && (forall k :: 0 <= k < |r.value| ==> InStates(r.value[k], Accepted(arg)))
      && (forall k :: 0 <= k < |t| && InStates(t[k], Accepted(arg)) ==> t[k] in r.value)
  {
    match Table(docs, now, localNow)
    case Err(e) => Err(e)
    case Ok(t) => if Filters(arg) then Ok(Filter(t, row => InStates(row, Accepted(arg)))) else Ok(t)
  }

  /** A single name filters exactly like the one-element list holding it. */
  lemma OneStateIsSingletonList(docs: seq<GameDoc>, name: string, now: Instant, localNow: Instant)
    requires |name| > 0
    ensures SelectGames(docs, OneState(name), now, localNow) == SelectGames(docs, States([name]), now, localNow)
  {
  }

  /** The empty string is falsy, so it selects every game, while the list holding
      it selects none: no phase is named "". */
  lemma EmptyNameSelectsAll(docs: seq<GameDoc>, now: Instant, localNow: Instant)
    ensures SelectGames(docs, OneState(""), now, localNow) == Table(docs, now, localNow)
    ensures SelectGames(docs, States([""]), now, localNow) ==
      if |docs| == 0 then Err(NoScheduledColumn) else Ok([])
  {
    if |docs| > 0 {
      var t := Table(docs, now, localNow).value;
      assert forall k :: 0 <= k < |t| ==> !InStates(t[k], [""]);
      var f := Filter(t, row => InStates(row, Accepted(States([""]))));
      assert SelectGames(docs, States([""]), now, localNow) == Ok(f);
      if |f| > 0 {
        assert false;
      }
    }
  }

  // ---------------------------------------------------------------------------
  // `Game`: lookup and derived fields

  /** `Game._info`: the query selects the `eid` column when some game has that
      eid, else the `gameid` column when some game has that id; the result is
      the first document whose selected column equals the match. It reads the
      table through `games()`, so an empty collection raises. */
  function LookupGame(docs: seq<GameDoc>, query: string): (r: Result<Option<GameDoc>, TableError>)
    ensures r.Err? <==> |docs| == 0
    ensures r.Ok? ==>
      (r.value.Some? <==> exists k :: 0 <= k < |docs| && (docs[k].gameid == query || docs[k].eid == query))
    ensures r.Ok? && r.value.Some? && (exists k :: 0 <= k < |docs| && docs[k].eid == query) ==>
      r.value.value.eid == query &&
      exists k :: 0 <= k < |docs| && docs[k] == r.value.value && forall j :: 0 <= j < k ==> docs[j].eid != query
    ensures r.Ok? && r.value.Some? && (forall k :: 0 <= k < |docs| ==> docs[k].eid != query) ==>
      r.value.value.gameid == query &&
      exists k :: 0 <= k < |docs| && docs[k] == r.value.value && forall j :: 0 <= j < k ==> docs[j].gameid != query
  {
    if |docs| == 0 then Err(NoScheduledColumn)
    else
      var byEid := FindFirst(docs, (d: GameDoc) => d.eid == query);
      var byId := FindFirst(docs, (d: GameDoc) => d.gameid == query);
      if byEid.Some? then Ok(Some(docs[byEid.value]))
      else if byId.Some? then Ok(Some(docs[byId.value]))
      else Ok(None)
  }

  /** One row of the `$group` aggregation: a team id and its tweet count. */
  datatype TeamCount = TeamCount(teamid: string, count: nat)

  datatype GameError = NoTeamCount(teamid: string) | TooFewColors

  /** `int(df[df._id == team]['count'])`: defined only when exactly one group
      row belongs to the team. */
  function GroupCount(groups: seq<TeamCount>, team: string): (r: Option<nat>)
    ensures r.Some? <==> |Filter(groups, (g: TeamCount) => g.teamid == team)| == 1
    ensures r.Some? ==> exists k :: 0 <= k < |groups| && groups[k] == TeamCount(team, r.value)
  {
    var rows := Filter(groups, (g: TeamCount) => g.teamid == team);
    if |rows| == 1 then Some(rows[0].count) else None
  }

  /** `Game._tweet_count`: (0, 0) when the game has no tweets at all; otherwise
      both teams must have a group row, or the conversion raises. */
  function TweetCount(groups: seq<TeamCount>, home: string, away: string): (r: Result<(nat, nat), GameError>)
    ensures |groups| == 0 ==> r == Ok((0, 0))
    ensures |groups| > 0 && r.Ok? ==>
      (exists k :: 0 <= k < |groups| && groups[k] == TeamCount(home, r.value.0)) &&
      (exists k :: 0 <= k < |groups| && groups[k] == TeamCount(away, r.value.1))
    ensures |groups| > 0 ==>
      (r.Ok? <==> GroupCount(groups, home).Some? && GroupCount(groups, away).Some?)
  {
    if |groups| == 0 then Ok((0, 0))
    else
      match (GroupCount(groups, home), GroupCount(groups, away))
      case (Some(h), Some(a)) => Ok((h, a))
      case (None, _) => Err(NoTeamCount(home))
      case (_, None) => Err(NoTeamCount(away))
  }

  datatype Colors = Colors(homePri: string, homeSec: string, awayPri: string, awaySec: string)

  /** `Game._colors`: the home team keeps its first two colours; each away
      colour is swapped for the other away colour when it equals the home
      colour in the same slot. `None` stands for a team that was not found. */
  function PickColors(home: Option<seq<string>>, away: Option<seq<string>>): (r: Result<Colors, GameError>)
    ensures r.Ok? <==> home.Some? && away.Some? && |home.value| >= 2 && |away.value| >= 2
    ensures r.Ok? ==> r.value.homePri == home.value[0] && r.value.homeSec == home.value[1]
    ensures r.Ok? ==> r.value.awayPri in away.value[..2] && r.value.awaySec in away.value[..2]
    ensures r.Ok? && away.value[0] != away.value[1] ==>
      r.value.awayPri != r.value.homePri && r.value.awaySec != r.value.homeSec
  {
    if home.None? || away.None? || |home.value| < 2 || |away.value| < 2 then Err(TooFewColors)
    else
      var h := home.value;
      var a := away.value;
      var awayPri := if h[0] == a[0] then a[1] else a[0];
      var awaySec := if h[1] == a[1] then a[0] else a[1];
      Ok(Colors(h[0], h[1], awayPri, awaySec))
  }

  /** The swap can give the away team one colour twice: sharing only the
      primary with the home team moves the away secondary into both slots. */
  lemma AwayColorsCanCoincide()
    ensures var r := PickColors(Some(["red", "blue"]), Some(["red", "green"]));
      r.Ok? && r.value.awayPri == r.value.awaySec == "green"
  {
  }

  /** The derived fields `Game.__init__` adds to a found document. */
  datatype GameView = GameView(
    doc: GameDoc,
    pregame: Instant,
    postgame: Instant,
    state: Option<Phase>,
    hometweets: nat,
    awaytweets: nat,
    colors: Colors)

  /** `Game.__init__` for a found document: window, state, counts and colours;
      an error in either of the last two aborts the construction. */
  function Describe(doc: GameDoc, now: Instant, localNow: Instant, groups: seq<TeamCount>,
                    homeColors: Option<seq<string>>, awayColors: Option<seq<string>>): (r: Result<GameView, GameError>)
    ensures r.Ok? <==> TweetCount(groups, doc.hometeam, doc.awayteam).Ok? && PickColors(homeColors, awayColors).Ok?
    ensures r.Err? && TweetCount(groups, doc.hometeam, doc.awayteam).Err? ==>
      r.error == TweetCount(groups, doc.hometeam, doc.awayteam).error
    ensures r.Ok? ==> r.value.doc == doc
    ensures r.Ok? ==> r.value.pregame == doc.scheduled - HOUR && r.value.postgame == doc.scheduled + 4 * HOUR
    ensures r.Ok? ==> r.value.state == State(doc.scheduled, now, localNow)
    ensures r.Ok? ==> (r.value.hometweets, r.value.awaytweets) == TweetCount(groups, doc.hometeam, doc.awayteam).value
    ensures r.Ok? ==> r.value.colors == PickColors(homeColors, awayColors).value
    ensures r.Ok? && |groups| == 0 ==> r.value.hometweets == 0 && r.value.awaytweets == 0
  {
    var w := GameWindow(doc.scheduled);
    match TweetCount(groups, doc.hometeam, doc.awayteam)
    case Err(e) => Err(e)
    case Ok(counts) =>
      match PickColors(homeColors, awayColors)
      case Err(e) => Err(e)
      case Ok(c) => Ok(GameView(doc, w.pregame, w.postgame, State(doc.scheduled, now, localNow), counts.0, counts.1, c))
  }

  /** A described game is live exactly while the clock lies strictly between
      its kickoff and its postgame instant. */
  lemma DescribedLiveWithinWindow(doc: GameDoc, now: Instant, localNow: Instant, groups: seq<TeamCount>,
                                  homeColors: Option<seq<string>>, awayColors: Option<seq<string>>)
    requires Describe(doc, now, localNow, groups, homeColors, awayColors).Ok?
    ensures var v := Describe(doc, now, localNow, groups, homeColors, awayColors).value;
      v.state == Some(Live) <==> doc.scheduled < now < v.postgame
  {
  }
}

=== FILE: plays.dfy ===
/** `nflfanfare/plays.py`: the play table built from nflgame drives (JAC/JAX
    fixes, marker rows, running scores), the Pro-Football-Reference play CSV
    and locations, NeuLion film links, and the rule that pairs a PFR play with
    an nflgame play. */
module Plays {
  import opened Results
  import opened Seqs
  import opened Strings
  import Schedule

  // ---------------------------------------------------------------------------
  // Play rows

  /** A table cell that holds a number for plays and a label for marker rows
      (`playid` and `quarter` mix both). */
  datatype Cell = Num(n: int) | Text(s: string)

  /** One row of the nflgame play table; `None` is a missing value. */
  datatype PlayRow = PlayRow(
    playid: Cell,
    quarter: Cell,
    drive: Option<int>,
    gameclock: Option<string>,
    team: Option<string>,
    down: Option<int>,
    ydline: Option<string>,
    note: Option<string>,
    description: Option<string>)

  // ---------------------------------------------------------------------------
  // `score_increase`

  /** The points each scoring note is worth. */
  const SCORING: map<string, nat> := map["TD" := 6, "FG" := 3, "2PS" := 2, "SAF" := 2, "XP" := 1]

  /** `score_increase`: the points a play with this note adds. */
  function ScoreIncrease(note: Option<string>): (n: nat)
    ensures n <= 6
    ensures n > 0 <==> note.Some? && note.value in SCORING
  {
    match note
    case None => 0
    case Some(s) =>
      if s == "TD" then 6
      else if s == "FG" then 3
      else if s == "2PS" then 2
      else if s == "SAF" then 2
      else if s == "XP" then 1
      else 0
  }

  /** The decision list agrees with the scoring table; unknown notes score 0. */
  lemma ScoreIncreaseTable(note: string)
    ensures ScoreIncrease(Some(note)) == if note in SCORING then SCORING[note] else 0
  {
  }

  // ---------------------------------------------------------------------------
  // Running scores

  /** The points `team` has after the given rows: the increments of the rows
      the team is credited with. */
  function TeamPoints(rows: seq<PlayRow>, team: string): nat
    decreases |rows|
  {
    if |rows| == 0 then 0
    else
      var last := rows[|rows| - 1];
      TeamPoints(rows[..|rows| - 1], team) + (if last.team == Some(team) then ScoreIncrease(last.note) else 0)
  }

  /** Points add up over consecutive stretches of the table. */
  lemma {:induction false} TeamPointsAppend(a: seq<PlayRow>, b: seq<PlayRow>, team: string)
    ensures TeamPoints(a + b, team) == TeamPoints(a, team) + TeamPoints(b, team)
    decreases |b|
  {
    if |b| == 0 {
      assert a + b == a;
    } else {
      assert (a + b)[..|a + b| - 1] == a + b[..|b| - 1];
      TeamPointsAppend(a, b[..|b| - 1], team);
    }
  }

  /** A team's points never go down as the table grows. */
  lemma TeamPointsMonotone(rows: seq<PlayRow>, i: nat, j: nat, team: string)
    requires i <= j <= |rows|
    ensures TeamPoints(rows[..i], team) <= TeamPoints(rows[..j], team)
  {
    assert rows[..j] == rows[..i] + rows[i..j];
    TeamPointsAppend(rows[..i], rows[i..j], team);
  }

  /** A row the team is not credited with leaves its points unchanged. */
  lemma TeamPointsStep(rows: seq<PlayRow>, i: nat, team: string)
    requires i < |rows|
    ensures TeamPoints(rows[..i + 1], team) ==
      TeamPoints(rows[..i], team) + (if rows[i].team == Some(team) then ScoreIncrease(rows[i].note) else 0)
  {
    assert rows[..i + 1][..i] == rows[..i];
  }

  /** The score loop of `nflgame_plays`: after each row, the points of the home
      and of the away team so far. */
  method RunningScores(rows: seq<PlayRow>, home: string, away: string) returns (homeScores: seq<nat>, awayScores: seq<nat>)
    ensures |homeScores| == |rows| && |awayScores| == |rows|
    ensures forall i :: 0 <= i < |rows| ==>
      homeScores[i] == TeamPoints(rows[..i + 1], home) && awayScores[i] == TeamPoints(rows[..i + 1], away)
    ensures forall i, j :: 0 <= i <= j < |rows| ==> homeScores[i] <= homeScores[j] && awayScores[i] <= awayScores[j]
    ensures forall i :: 0 < i < |rows| && rows[i].team != Some(home) ==> homeScores[i] == homeScores[i - 1]
    ensures forall i :: 0 < i < |rows| && rows[i].team != Some(away) ==> awayScores[i] == awayScores[i - 1]
  {
    var hscore, ascore := 0, 0;
    homeScores, awayScores := [], [];
    var i := 0;
    while i < |rows|
      invariant 0 <= i <= |rows|
      invariant |homeScores| == i && |awayScores| == i
      invariant hscore == TeamPoints(rows[..i], home) && ascore == TeamPoints(rows[..i], away)
      invariant forall k :: 0 <= k < i ==>
        homeScores[k] == TeamPoints(rows[..k + 1], home) && awayScores[k] == TeamPoints(rows[..k + 1], away)
    {
      TeamPointsStep(rows, i, home);
      TeamPointsStep(rows, i, away);
      if rows[i].team == Some(home) {
        hscore := hscore + ScoreIncrease(rows[i].note);
      }
      if rows[i].team == Some(away) {
        ascore := ascore + ScoreIncrease(rows[i].note);
      }
      homeScores := homeScores + [hscore];
      awayScores := awayScores + [ascore];
      i := i + 1;
    }
    forall i, j | 0 <= i <= j < |rows|
      ensures homeScores[i] <= homeScores[j] && awayScores[i] <= awayScores[j]
    {
      TeamPointsMonotone(rows, i + 1, j + 1, home);
      TeamPointsMonotone(rows, i + 1, j + 1, away);
    }
    forall i | 0 < i < |rows|
      ensures rows[i].team != Some(home) ==> homeScores[i] == homeScores[i - 1]
      ensures rows[i].team != Some(away) ==> awayScores[i] == awayScores[i - 1]
    {
      TeamPointsStep(rows, i, home);
      TeamPointsStep(rows, i, away);
    }
  }

  // ---------------------------------------------------------------------------
  // Flattening the drives

  /** A key of the `drives` dictionary: the current-drive pointer or a drive number. */
  datatype DriveKey = CurrentDrive | DriveNumber(n: int)

  /** One play as the nflgame feed lists it inside a drive. */
  datatype RawPlay = RawPlay(
    playid: int,
    posteam: Option<string>,
    down: Option<int>,
    yrdln: string,
    note: Option<string>,
    desc: string,
    qtr: int,
    time: string)

  datatype Drive = Drive(key: DriveKey, plays: seq<RawPlay>)

  /** Plays whose description mentions "END" (end of quarter or game) are skipped. */
  predicate Kept(p: RawPlay) {
    !Contains(p.desc, "END")
  }

  function ToRow(drive: int, p: RawPlay): PlayRow {
    PlayRow(Num(p.playid), Num(p.qtr), Some(drive), Some(p.time), p.posteam, p.down, Some(p.yrdln), p.note, Some(p.desc))
  }

  /** The rows of one numbered drive: its kept plays, in feed order, one row each. */
  function DriveRows(drive: int, plays: seq<RawPlay>): (r: seq<PlayRow>)
    ensures forall row :: row in r <==> exists j :: 0 <= j < |plays| && Kept(plays[j]) && row == ToRow(drive, plays[j])
    ensures |r| == |Filter(plays, Kept)|
    ensures forall k :: 0 <= k < |r| ==> r[k] == ToRow(drive, Filter(plays, Kept)[k])
  {
    var kept := Filter(plays, Kept);
    var r := seq(|kept|, k requires 0 <= k < |kept| => ToRow(drive, kept[k]));
    assert forall row :: row in r ==> exists j :: 0 <= j < |plays| && Kept(plays[j]) && row == ToRow(drive, plays[j]) by {
      forall row | row in r
        ensures exists j :: 0 <= j < |plays| && Kept(plays[j]) && row == ToRow(drive, plays[j])
      {
        var k :| 0 <= k < |r| && r[k] == row;
        assert kept[k] in plays;
        var j :| 0 <= j < |plays| && plays[j] == kept[k];
        assert Kept(plays[j]);
      }
    }
    assert forall j :: 0 <= j < |plays| && Kept(plays[j]) ==> ToRow(drive, plays[j]) in r by {
      forall j | 0 <= j < |plays| && Kept(plays[j])
        ensures ToRow(drive, plays[j]) in r
      {
        assert plays[j] in kept;
        var k :| 0 <= k < |kept| && kept[k] == plays[j];
        assert r[k] == ToRow(drive, plays[j]);
      }
    }
    r
  }

  /** The event table of `nflgame_plays` before sorting: one row per play of a
      numbered drive that is not an "END" play. */
  function FlattenDrives(drives: seq<Drive>): (r: seq<PlayRow>)
    ensures forall row :: row in r <==>
      exists i, j :: 0 <= i < |drives| && drives[i].key.DriveNumber? &&
        0 <= j < |drives[i].plays| && Kept(drives[i].plays[j]) && row == ToRow(drives[i].key.n, drives[i].plays[j])
    decreases |drives|
  {
    if |drives| == 0 then []
    else
      var rest := FlattenDrives(drives[1..]);
      assert forall i :: 1 <= i < |drives| ==> drives[1..][i - 1] == drives[i];
      match drives[0].key
      case CurrentDrive => rest
      case DriveNumber(n) => DriveRows(n, drives[0].plays) + rest
  }

  /** The table of consecutive drive lists is the concatenation of their tables:
      each drive contributes its rows once, in dictionary order. */
  lemma {:induction false} FlattenDrivesAppend(a: seq<Drive>, b: seq<Drive>)
    ensures FlattenDrives(a + b) == FlattenDrives(a) + FlattenDrives(b)
    decreases |a|
  {
    if |a| == 0 {
      assert a + b == b;
    } else {
      assert (a + b)[1..] == a[1..] + b;
      FlattenDrivesAppend(a[1..], b);
    }
  }

  /** One more drive appends exactly its own rows: none for the current-drive
      pointer, the kept plays' rows for a numbered drive. */
  lemma FlattenDrivesExtend(drives: seq<Drive>, d: Drive)
    ensures FlattenDrives(drives + [d]) ==
      FlattenDrives(drives) + (if d.key.DriveNumber? then DriveRows(d.key.n, d.plays) else [])
  {
    FlattenDrivesAppend(drives, [d]);
    assert [d][1..] == [];
  }

  /** No row of the table comes from an "END" play, and each carries its drive. */
  lemma FlattenedRowsArePlays(drives: seq<Drive>, row: PlayRow)
    requires row in FlattenDrives(drives)
    ensures row.drive.Some? && row.quarter.Num? && row.description.Some?
    ensures !Contains(row.description.value, "END")
  {
  }

  // ---------------------------------------------------------------------------
  // Jacksonville fixes

  /** The team column: "JAC" becomes "JAX". */
  function FixTeam(team: Option<string>): (r: Option<string>)
    ensures r != Some("JAC")
    ensures team == Some("JAC") ==> r == Some("JAX")
    ensures team != Some("JAC") ==> r == team
  {
    if team == Some("JAC") then Some("JAX") else team
  }

  /** The description and yard-line columns: every "JAC" becomes "JAX". */
  function FixText(x: string): (r: string)
    ensures !Contains(r, "JAC")
    ensures |r| == |x|
    ensures !Contains(x, "JAC") ==> r == x
  {
    if Contains(x, "JAC") then
      NoJacAfterReplace(x);
      ReplaceAllSameLength(x, "JAC", "JAX");
      ReplaceAll(x, "JAC", "JAX")
    else x
  }

  /** The guard in front of the replacement changes nothing: replacing in a
      text without "JAC" leaves it as it is. */
  lemma FixTextIsReplace(x: string)
    ensures FixText(x) == ReplaceAll(x, "JAC", "JAX")
  {
    if !Contains(x, "JAC") {
      ReplaceAllNoOccurrence(x, "JAC", "JAX");
    }
  }

  /** Replacing "JAC" by "JAX" leaves no "JAC" behind: the replacement cannot
      complete a new occurrence with its neighbours. */
  lemma {:induction false} NoJacAfterReplace(s: string)
    ensures !Contains(ReplaceAll(s, "JAC", "JAX"), "JAC")
    decreases |s|
  {
    var r := ReplaceAll(s, "JAC", "JAX");
    if HasPrefix(s, "JAC") {
      var y := ReplaceAll(s[3..], "JAC", "JAX");
      NoJacAfterReplace(s[3..]);
      var r2 := "X" + y;
      assert r2[1..] == y;
      assert !HasPrefix(r2, "JAC") by {
        assert r2[0] == 'X';
      }
      assert !Contains(r2, "JAC");
      var r1 := "AX" + y;
      assert r1[1..] == r2;
      assert !HasPrefix(r1, "JAC") by {
        assert r1[0] == 'A';
      }
      assert !Contains(r1, "JAC");
      assert r == "JAX" + y;
      assert r[1..] == r1;
      assert !HasPrefix(r, "JAC") by {
        assert r[2] == 'X';
      }
    } else if |s| > 0 {
      var y := ReplaceAll(s[1..], "JAC", "JAX");
      NoJacAfterReplace(s[1..]);
      assert r == [s[0]] + y;
      assert r[1..] == y;
      if HasPrefix(r, "JAC") {
        assert false;
      }
    }
  }

  /** The three column fixes on one row; every other column is kept. The
      flattened table always has a description and a yard line. */
  function FixRow(row: PlayRow): (r: PlayRow)
    ensures r.team != Some("JAC")
    ensures r.description.Some? <==> row.description.Some?
    ensures r.description.Some? ==> !Contains(r.description.value, "JAC") && |r.description.value| == |row.description.value|
    ensures r.ydline.Some? <==> row.ydline.Some?
    ensures r.ydline.Some? ==> !Contains(r.ydline.value, "JAC") && |r.ydline.value| == |row.ydline.value|
    ensures r.(team := row.team, description := row.description, ydline := row.ydline) == row
  {
    row.(team := FixTeam(row.team),
         description := if row.description.Some? then Some(FixText(row.description.value)) else None,
         ydline := if row.ydline.Some? then Some(FixText(row.ydline.value)) else None)
  }

  /** A row mentioning no "JAC" anywhere is left alone. */
  lemma FixRowNoJac(row: PlayRow)
    requires row.team != Some("JAC")
    requires row.description.Some? ==> !Contains(row.description.value, "JAC")
    requires row.ydline.Some? ==> !Contains(row.ydline.value, "JAC")
    ensures FixRow(row) == row
  {
  }

  /** The fix undoes the spelling the schedule uses towards nflgame. */
  lemma FixTeamUndoesNflgameCode(team: string)
    requires team != "JAC"
    ensures FixTeam(Some(Schedule.NflgameCode(team))) == Some(team)
  {
  }

  // ---------------------------------------------------------------------------
  // Marker rows

  function Marker(id: string, tag: string): PlayRow {
    PlayRow(Text(id), Text(tag), None, None, None, None, None, Some(tag), None)
  }

  const PREGAME_ROW: PlayRow := Marker("pre", "PREGAME")
  const HALF_START_ROW: PlayRow := Marker("halfst", "HALFTIME")
  const HALF_END_ROW: PlayRow := Marker("halfend", "HALFTIME")
  const POSTGAME_ROW: PlayRow := Marker("post", "POSTGAME")

  predicate IsPlay(row: PlayRow) {
    row.quarter.Num?
  }

  predicate InSecond(row: PlayRow) {
    row.quarter == Num(2)
  }

  predicate InThird(row: PlayRow) {
    row.quarter == Num(3)
  }

  datatype PlaysError = NoSecondQuarter | NoThirdQuarter

  /** The table with the markers around and between its two halves. */
  function MarkedTable(front: seq<PlayRow>, back: seq<PlayRow>): seq<PlayRow> {
    [PREGAME_ROW] + front + [HALF_START_ROW, HALF_END_ROW] + back + [POSTGAME_ROW]
  }

  /** Where each part of a marked table sits. */
  lemma MarkedTableLayout(front: seq<PlayRow>, back: seq<PlayRow>)
    ensures var m := MarkedTable(front, back);
      && |m| == |front| + |back| + 4
      && m[0] == PREGAME_ROW && m[|m| - 1] == POSTGAME_ROW
      && m[1..|front| + 1] == front
      && m[|front| + 1] == HALF_START_ROW && m[|front| + 2] == HALF_END_ROW
      && m[|front| + 3..|m| - 1] == back
  {
    var x1 := [PREGAME_ROW] + front;
    var x2 := x1 + [HALF_START_ROW, HALF_END_ROW];
    var x3 := x2 + back;
    var m := x3 + [POSTGAME_ROW];
    assert m == MarkedTable(front, back);
    assert m[..|x3|] == x3;
    assert x3[..|x2|] == x2;
    assert x2[..|x1|] == x1;
    assert m[1..|front| + 1] == x1[1..] == front;
    assert m[|front| + 3..|m| - 1] == x3[|x2|..] == back;
  }

  /** The marker insertion of `nflgame_plays` on the sorted table: PREGAME
      first, the two HALFTIME rows after the last second-quarter play and
      before the first third-quarter play, POSTGAME last, every play kept in
      place around them. A table without a second- or third-quarter play
      makes the lookup of its position fail. */
  function InsertMarkers(rows: seq<PlayRow>): (r: Result<seq<PlayRow>, PlaysError>)
    ensures r.Ok? <==> (exists k :: 0 <= k < |rows| && InSecond(rows[k])) && (exists k :: 0 <= k < |rows| && InThird(rows[k]))
    ensures r.Ok? ==> |r.value| >= 4 && r.value[0] == PREGAME_ROW && r.value[|r.value| - 1] == POSTGAME_ROW
    ensures r.Ok? ==>
      var e, s := FindLast(rows, InSecond).value, FindFirst(rows, InThird).value;
      && |r.value| == e + 1 + (|rows| - s) + 4
      && r.value[1..e + 2] == rows[..e + 1]
      && r.value[e + 2] == HALF_START_ROW && r.value[e + 3] == HALF_END_ROW
      && r.value[e + 4..|r.value| - 1] == rows[s..]
  {
    var last2 := FindLast(rows, InSecond);
    var first3 := FindFirst(rows, InThird);
    if last2.None? then Err(NoSecondQuarter)
    else if first3.None? then Err(NoThirdQuarter)
    else
      var e, s := last2.value, first3.value;
      MarkedTableLayout(rows[..e + 1], rows[s..]);
      Ok(MarkedTable(rows[..e + 1], rows[s..]))
  }

  /** What `InsertMarkers` builds when both quarters are present. */
  lemma InsertMarkersValue(rows: seq<PlayRow>)
    requires FindLast(rows, InSecond).Some? && FindFirst(rows, InThird).Some?
    ensures InsertMarkers(rows) ==
      Ok(MarkedTable(rows[..FindLast(rows, InSecond).value + 1], rows[FindFirst(rows, InThird).value..]))
  {
  }

  /** Quarter numbers never decrease along the table. The sort is by drive
      first, so this holds after it only when drive numbers follow game time
      (no drive spans back into an earlier quarter than one before it). */
  predicate QuartersOrdered(rows: seq<PlayRow>) {
    (forall k :: 0 <= k < |rows| ==> rows[k].quarter.Num?) &&
    (forall i, j :: 0 <= i < j < |rows| ==> rows[i].quarter.n <= rows[j].quarter.n)
  }

  /** On an ordered table the last second-quarter play is immediately followed
      by the first third-quarter play. */
  lemma HalftimeBoundary(rows: seq<PlayRow>)
    requires QuartersOrdered(rows)
    requires FindLast(rows, InSecond).Some? && FindFirst(rows, InThird).Some?
    ensures FindLast(rows, InSecond).value + 1 == FindFirst(rows, InThird).value
  {
    var e := FindLast(rows, InSecond).value;
    var s := FindFirst(rows, InThird).value;
    assert e < s;
    if e + 1 < s {
      assert rows[e + 1].quarter.n > 2 by {
        assert rows[e].quarter.n <= rows[e + 1].quarter.n;
      }
      assert false;
    }
  }

  /** Dropping the markers of the table `pre + front + halftime + back + post`
      leaves the plays `front + back`. */
  lemma FilterMarkedTable(front: seq<PlayRow>, back: seq<PlayRow>)
    requires forall k :: 0 <= k < |front| ==> IsPlay(front[k])
    requires forall k :: 0 <= k < |back| ==> IsPlay(back[k])
    ensures Filter(MarkedTable(front, back), IsPlay) == front + back
  {
    var markers := [HALF_START_ROW, HALF_END_ROW];
    var x1 := [PREGAME_ROW] + front;
    var x2 := x1 + markers;
    var x3 := x2 + back;
    assert Filter(x1, IsPlay) == front by {
      FilterAppend([PREGAME_ROW], front, IsPlay);
      assert Filter([PREGAME_ROW], IsPlay) == [];
      assert Filter(front, IsPlay) == front;
    }
    assert Filter(x2, IsPlay) == front by {
      FilterAppend(x1, markers, IsPlay);
      assert Filter(markers, IsPlay) == [] by {
        assert Filter(markers[1..], IsPlay) == [];
      }
    }
    assert Filter(x3, IsPlay) == front + back by {
      FilterAppend(x2, back, IsPlay);
      assert Filter(back, IsPlay) == back;
    }
    FilterAppend(x3, [POSTGAME_ROW], IsPlay);
    assert Filter([POSTGAME_ROW], IsPlay) == [];
  }

  /** A single row credited to another team adds no points. */
  lemma OtherTeamRowPoints(row: PlayRow, team: string)
    requires row.team != Some(team)
    ensures TeamPoints([row], team) == 0
  {
    assert [row][..0] == [];
  }

  /** Marker rows credit no team, so they add no points. */
  lemma PointsOfMarkedTable(front: seq<PlayRow>, back: seq<PlayRow>, team: string)
    ensures TeamPoints(MarkedTable(front, back), team) == TeamPoints(front + back, team)
  {
    var markers := [HALF_START_ROW, HALF_END_ROW];
    OtherTeamRowPoints(PREGAME_ROW, team);
    OtherTeamRowPoints(HALF_START_ROW, team);
    OtherTeamRowPoints(POSTGAME_ROW, team);
    assert TeamPoints(markers, team) == 0 by {
      assert markers[..1] == [HALF_START_ROW];
    }
    TeamPointsAppend([PREGAME_ROW] + front + markers + back, [POSTGAME_ROW], team);
    TeamPointsAppend([PREGAME_ROW] + front + markers, back, team);
    TeamPointsAppend([PREGAME_ROW] + front, markers, team);
    TeamPointsAppend([PREGAME_ROW], front, team);
    TeamPointsAppend(front, back, team);
  }

  /** When the halftime boundary is where the last second-quarter play meets
      the first third-quarter play, the markers add four rows and no points,
      and dropping them gives back the table. */
  lemma MarkersAtBoundary(rows: seq<PlayRow>, team: string)
    requires forall k :: 0 <= k < |rows| ==> IsPlay(rows[k])
    requires FindLast(rows, InSecond).Some? && FindFirst(rows, InThird).Some?
    requires FindLast(rows, InSecond).value + 1 == FindFirst(rows, InThird).value
    ensures InsertMarkers(rows).Ok?
    ensures |InsertMarkers(rows).value| == |rows| + 4
    ensures Filter(InsertMarkers(rows).value, IsPlay) == rows
    ensures TeamPoints(InsertMarkers(rows).value, team) == TeamPoints(rows, team)
  {
    var s := FindFirst(rows, InThird).value;
    var front, back := rows[..s], rows[s..];
    InsertMarkersValue(rows);
    assert front + back == rows;
    FilterMarkedTable(front, back);
    PointsOfMarkedTable(front, back, team);
  }

  /** On an ordered table with second- and third-quarter plays, the markers
      add exactly four rows, and dropping them gives back the table: the
      halftime rows fall between the two quarters, with no play lost or
      repeated. The final scores are therefore those of the table. */
  lemma MarkersOnOrderedTable(rows: seq<PlayRow>, team: string)
    requires QuartersOrdered(rows)
    requires exists k :: 0 <= k < |rows| && InSecond(rows[k])
    requires exists k :: 0 <= k < |rows| && InThird(rows[k])
    ensures InsertMarkers(rows).Ok?
    ensures |InsertMarkers(rows).value| == |rows| + 4
    ensures Filter(InsertMarkers(rows).value, IsPlay) == rows
    ensures TeamPoints(InsertMarkers(rows).value, team) == TeamPoints(rows, team)
  {
    HalftimeBoundary(rows);
    MarkersAtBoundary(rows, team);
  }

  // ---------------------------------------------------------------------------
  // `pfr_plays`: the play CSV and locations

  /** The play CSV clean-up: keep the lines that are non-empty, do not start
      with ',' and do not mention "Quarter", each written unprefixed. */
  function PlaysCsv(text: string): (r: string)
    ensures Split(r, '\n') == Schedule.DataLines(Split(text, '\n'), "Quarter") + [""]
  {
    var r := Schedule.CleanCsv("", "Quarter", text);
    var kept := Schedule.DataLines(Split(text, '\n'), "Quarter");
    assert Schedule.Prefixed("", kept) == kept by {
      forall k | 0 <= k < |kept| ensures Schedule.Prefixed("", kept)[k] == kept[k] {
        assert "" + kept[k] == kept[k];
      }
    }
    r
  }

  /** `fix_location`: the first word of a PFR location is a PFR team id, which
      is lower-cased and replaced by the team id (`teamOf` stands for that
      lookup); the second word is kept; later words are dropped. A location of
      fewer than two words fails. */
  function FixLocation(location: string, teamOf: string -> string): (r: Option<string>)
    ensures r.Some? <==> |Words(location)| >= 2
  {
    var words := Words(location);
    if |words| < 2 then None else Some(teamOf(Lower(words[0])) + " " + words[1])
  }

  /** A location "pfrid yard" becomes "teamid yard", and when the team id is a
      single word, the fixed location splits back into the team id and the
      yard. */
  lemma FixLocationOfPair(pfr: string, yard: string, teamOf: string -> string)
    requires |pfr| > 0 && NoSpace(pfr)
    requires |yard| > 0 && NoSpace(yard)
    ensures FixLocation(pfr + " " + yard, teamOf) == Some(teamOf(Lower(pfr)) + " " + yard)
    ensures |teamOf(Lower(pfr))| > 0 && NoSpace(teamOf(Lower(pfr))) ==>
      Words(FixLocation(pfr + " " + yard, teamOf).value) == [teamOf(Lower(pfr)), yard]
  {
    WordsOfPair(pfr, yard);
    if |teamOf(Lower(pfr))| > 0 && NoSpace(teamOf(Lower(pfr))) {
      WordsOfPair(teamOf(Lower(pfr)), yard);
    }
  }

  // ---------------------------------------------------------------------------
  // `Film.neulion_url`

  /** The month and day fields of the film link: below 10 a "0" goes in front. */
  function NeulionPad(n: nat): (r: string)
    ensures |r| >= 2 && AllDigits(r)
    ensures n < 100 ==> |r| == 2
    ensures ParseDigits(r) == n
  {
    ParseDigitsOfDigits(n);
    if n < 10 then
      ParseDigitsLeadingZero(Digits(n));
      "0" + Digits(n)
    else Digits(n)
  }

  /** The film link pads months and days exactly as the boxscore link does,
      although one tests the value and the other the length of its text. */
  lemma NeulionPadIsBoxscorePad(n: nat)
    ensures NeulionPad(n) == Schedule.PadTwo(Digits(n))
  {
  }

  const NEULION_BASE: string := "http://smb.cdnllnwnl.neulion.com/u/nfl/nfl/coachtapes/"

  /** `neulion_url`: base, year/MM/DD/, then `gameid_play/pc/gameid_play_1600.mp4`. */
  function NeulionUrl(year: nat, month: nat, day: nat, gameid: string, play: string): (r: string)
    ensures HasPrefix(r, NEULION_BASE + Digits(year) + "/")
    ensures HasSuffix(r, gameid + "_" + play + "/pc/" + gameid + "_" + play + "_1600.mp4")
  {
    var head := NEULION_BASE + Digits(year) + "/";
    var date := NeulionPad(month) + "/" + NeulionPad(day) + "/";
    var tail := gameid + "_" + play + "/pc/" + gameid + "_" + play + "_1600.mp4";
    ConcatAffixes(head, date, tail);
    head + date + tail
  }

  /** Round trip: for a four-digit year, month and day below 100 sit at fixed
      positions of the link and read back as numbers. */
  lemma NeulionUrlDecodes(year: nat, month: nat, day: nat, gameid: string, play: string)
    requires 1000 <= year <= 9999 && month < 100 && day < 100
    ensures var r := NeulionUrl(year, month, day, gameid, play);
      var b := |NEULION_BASE|;
      && |r| >= b + 11
      && r[b + 4] == '/' && r[b + 7] == '/' && r[b + 10] == '/'
      && AllDigits(r[b..b + 4]) && ParseDigits(r[b..b + 4]) == year
      && AllDigits(r[b + 5..b + 7]) && ParseDigits(r[b + 5..b + 7]) == month
      && AllDigits(r[b + 8..b + 10]) && ParseDigits(r[b + 8..b + 10]) == day
  {
    var r := NeulionUrl(year, month, day, gameid, play);
    var y, m, d := Digits(year), NeulionPad(month), NeulionPad(day);
    var head := NEULION_BASE + y + "/";
    var date := m + "/" + d + "/";
    var tail := gameid + "_" + play + "/pc/" + gameid + "_" + play + "_1600.mp4";
    var b := |NEULION_BASE|;
    ParseDigitsOfDigits(year);
    assert r == head + date + tail;
    ConcatAffixes(head, date, tail);
    ConcatAffixes(NEULION_BASE, y, "/");
    ConcatAffixes(m + "/", d, "/");
    ConcatAffixes(m, "/", d + "/");
    assert date == m + "/" + (d + "/");
    assert r[b..b + 4] == y by {
      assert r[..|head|] == head;
    }
    assert r[b + 4] == head[b + 4] == '/';
    assert r[b + 5..b + 11] == date;
    assert date[..2] == m && date[3..5] == d;
    forall k | 0 <= k < 6
      ensures r[b + 5 + k] == date[k]
    {
      assert r[b + 5..b + 11][k] == date[k];
    }
    assert r[b + 5..b + 7] == date[..2];
    assert r[b + 8..b + 10] == date[3..5];
  }

  // ---------------------------------------------------------------------------
  // `Matcher.wordnet_pos`

  /** The WordNet parts of speech. */
  datatype Pos = Adj | Verb | Noun | Adv

  /** `wordnet_pos`: the word with the part of speech its Penn tag starts with;
      every other tag, the empty one included, counts as a noun. */
  function WordnetPos(tagged: (string, string)): (r: (string, Pos))
    ensures r.0 == tagged.0
    ensures r.1 == Adj <==> HasPrefix(tagged.1, "J")
    ensures r.1 == Verb <==> HasPrefix(tagged.1, "V")
    ensures r.1 == Adv <==> HasPrefix(tagged.1, "R")
    ensures r.1 == Noun <==> !HasPrefix(tagged.1, "J") && !HasPrefix(tagged.1, "V") && !HasPrefix(tagged.1, "R")
  {
    var (word, tag) := tagged;
    if |tag| > 0 && tag[0] == 'J' then (word, Adj)
    else if |tag| > 0 && tag[0] == 'V' then (word, Verb)
    else if |tag| > 0 && tag[0] == 'N' then (word, Noun)
    else if |tag| > 0 && tag[0] == 'R' then (word, Adv)
    else (word, Noun)
  }

  // ---------------------------------------------------------------------------
  // `Matcher.match_plays`: pairing PFR plays with nflgame plays

  /** A stored PFR play, with the fields the matcher reads. */
  datatype PfrPlay = PfrPlay(
    quarter: Cell,
    down: Option<int>,
    gameclock: Option<string>,
    location: Option<string>,
    description: Option<string>)

  /** `gameclock.split(':')` read as (minutes text, seconds): the minutes are
      compared as text, the seconds converted with `int`. A clock without a
      ':' or whose seconds field is not a number cannot be read. */
  function ParseClock(clock: Option<string>): (r: Option<(string, nat)>)
    ensures r.Some? <==>
      clock.Some? && |Split(clock.value, ':')| >= 2 &&
      |Split(clock.value, ':')[1]| > 0 && AllDigits(Split(clock.value, ':')[1])
    ensures r.Some? ==> r.value.0 == Split(clock.value, ':')[0]
    ensures r.Some? ==> r.value.1 == ParseDigits(Split(clock.value, ':')[1])
  {
    if clock.None? then None
    else
      var parts := Split(clock.value, ':');
      if |parts| < 2 || |parts[1]| == 0 || !AllDigits(parts[1]) then None
      else Some((parts[0], ParseDigits(parts[1])))
  }

  /** Round trip on text: minutes, ':' and any digit string read back as those
      minutes and the number the digits spell, leading zeros included. */
  lemma ParseClockOfText(minutes: string, secs: string)
    requires ':' !in minutes
    requires |secs| > 0 && AllDigits(secs)
    ensures ParseClock(Some(minutes + ":" + secs)) == Some((minutes, ParseDigits(secs)))
  {
    assert ':' !in secs by {
      forall k | 0 <= k < |secs| ensures secs[k] != ':' {
        assert IsDigit(secs[k]);
      }
    }
    assert minutes + ":" + secs == minutes + [':'] + secs;
    SplitAtSeparator(minutes, secs, ':');
    SplitSingle(secs, ':');
  }

  /** Round trip: a clock written as minutes, ':' and seconds reads back as
      those minutes and seconds, whether the seconds are written plainly or
      padded to two digits as the feeds write them ("12:07"). */
  lemma ParseClockOfClock(minutes: string, seconds: nat)
    requires ':' !in minutes
    ensures ParseClock(Some(minutes + ":" + Digits(seconds))) == Some((minutes, seconds))
    ensures ParseClock(Some(minutes + ":" + NeulionPad(seconds))) == Some((minutes, seconds))
  {
    ParseDigitsOfDigits(seconds);
    ParseClockOfText(minutes, Digits(seconds));
    ParseClockOfText(minutes, NeulionPad(seconds));
  }

  /** A clock with no ':' in it cannot be read. */
  lemma ParseClockNeedsColon(clock: string)
    requires ':' !in clock
    ensures ParseClock(Some(clock)).None?
  {
    SplitSingle(clock, ':');
  }

  function Abs(x: int): nat {
    if x < 0 then -x else x
  }

  /** Same quarter and down: the test that makes the loop read both clocks. */
  predicate SameSlot(p: PfrPlay, q: PlayRow) {
    p.quarter == q.quarter && p.down == q.down
  }

  /** The closeness test on two readable clocks: same minute or same yard
      line, seconds less than 10 apart, row positions less than 15 apart. */
  predicate Close(i1: int, p: PfrPlay, i2: int, q: PlayRow)
    requires ParseClock(p.gameclock).Some? && ParseClock(q.gameclock).Some?
  {
    var c1, c2 := ParseClock(p.gameclock).value, ParseClock(q.gameclock).value;
    (c1.0 == c2.0 || p.location == q.ydline) && Abs(c1.1 - c2.1) < 10 && Abs(i1 - i2) < 15
  }

  /** A pair the loop fails on: an unreadable clock, or a close pair missing a
      description to compare. */
  predicate Fails(i1: int, p: PfrPlay, i2: int, q: PlayRow) {
    SameSlot(p, q) &&
    (ParseClock(p.gameclock).None? || ParseClock(q.gameclock).None? ||
     (Close(i1, p, i2, q) && (p.description.None? || q.description.None?)))
  }

  /** A candidate: a pair whose similarity is computed. */
  predicate Candidate(i1: int, p: PfrPlay, i2: int, q: PlayRow) {
    SameSlot(p, q) && ParseClock(p.gameclock).Some? && ParseClock(q.gameclock).Some? &&
    Close(i1, p, i2, q) && p.description.Some? && q.description.Some?
  }

  /** The match chosen for PFR play `i1`: the earliest candidate of greatest
      similarity, provided that similarity is positive; `sim` stands for the
      lemma-overlap ratio. */
  predicate IsBest(i1: int, p: PfrPlay, nfl: seq<PlayRow>, sim: (string, string) -> real, m: Option<nat>) {
    match m
    case None =>
      forall k :: 0 <= k < |nfl| && Candidate(i1, p, k, nfl[k]) ==>
        sim(p.description.value, nfl[k].description.value) <= 0.0
    case Some(j) =>
      && j < |nfl| && Candidate(i1, p, j, nfl[j])
      && sim(p.description.value, nfl[j].description.value) > 0.0
      && (forall k :: 0 <= k < |nfl| && Candidate(i1, p, k, nfl[k]) ==>
            sim(p.description.value, nfl[k].description.value) <= sim(p.description.value, nfl[j].description.value))
      && (forall k :: 0 <= k < j && Candidate(i1, p, k, nfl[k]) ==>
            sim(p.description.value, nfl[k].description.value) < sim(p.description.value, nfl[j].description.value))
  }

  /** The rule picks at most one play: the strict comparison breaks ties
      towards the earliest. */
  lemma BestIsUnique(i1: int, p: PfrPlay, nfl: seq<PlayRow>, sim: (string, string) -> real, m1: Option<nat>, m2: Option<nat>)
    requires IsBest(i1, p, nfl, sim, m1) && IsBest(i1, p, nfl, sim, m2)
    ensures m1 == m2
  {
  }

  datatype MatchError = UnreadableClock(row: nat) | NoDescription(row: nat)

  /** The inner loop of `match_plays` for PFR play `i1`: scan the nflgame
      plays in order and keep the one whose similarity first beats the best
      so far (starting from 0). Reading a bad clock or comparing a missing
      description aborts the whole matching. */
  method BestMatch(i1: int, p: PfrPlay, nfl: seq<PlayRow>, sim: (string, string) -> real) returns (r: Result<Option<nat>, MatchError>)
    ensures r.Err? <==> exists k :: 0 <= k < |nfl| && Fails(i1, p, k, nfl[k])
    ensures r.Ok? ==> IsBest(i1, p, nfl, sim, r.value)
  {
    var best: real := 0.0;
    var row: Option<nat> := None;
    var i2 := 0;
    while i2 < |nfl|
      invariant 0 <= i2 <= |nfl|
      invariant forall k :: 0 <= k < i2 ==> !Fails(i1, p, k, nfl[k])
      invariant row.None? ==> best == 0.0
      invariant row.Some? ==>
        && row.value < i2 && Candidate(i1, p, row.value, nfl[row.value])
        && best == sim(p.description.value, nfl[row.value].description.value) && best > 0.0
      invariant forall k :: 0 <= k < i2 && Candidate(i1, p, k, nfl[k]) ==>
        sim(p.description.value, nfl[k].description.value) <= best
      invariant row.Some? ==> forall k :: 0 <= k < row.value && Candidate(i1, p, k, nfl[k]) ==>
        sim(p.description.value, nfl[k].description.value) < best
    {
      var q := nfl[i2];
      if SameSlot(p, q) {
        var c1, c2 := ParseClock(p.gameclock), ParseClock(q.gameclock);
        if c1.None? || c2.None? {
          return Err(UnreadableClock(i2));
        }
        if Close(i1, p, i2, q) {
          if p.description.None? || q.description.None? {
            return Err(NoDescription(i2));
          }
          var similarity := sim(p.description.value, q.description.value);
          if similarity > best {
            best := similarity;
            row := Some(i2);
          }
        }
      }
      i2 := i2 + 1;
    }
    return Ok(row);
  }

  /** `match_plays`: the chosen nflgame play for every PFR play, in order; any
      failure aborts the whole run. */
  method MatchPlays(pfr: seq<PfrPlay>, nfl: seq<PlayRow>, sim: (string, string) -> real) returns (r: Result<seq<Option<nat>>, MatchError>)
    ensures r.Ok? ==> |r.value| == |pfr|
    ensures r.Ok? ==> forall i :: 0 <= i < |pfr| ==> IsBest(i, pfr[i], nfl, sim, r.value[i])
    ensures r.Ok? <==> forall i, k :: 0 <= i < |pfr| && 0 <= k < |nfl| ==> !Fails(i, pfr[i], k, nfl[k])
  {
    var matches: seq<Option<nat>> := [];
    var i1 := 0;
    while i1 < |pfr|
      invariant 0 <= i1 <= |pfr|
      invariant |matches| == i1
      invariant forall i :: 0 <= i < i1 ==> IsBest(i, pfr[i], nfl, sim, matches[i])
      invariant forall i, k :: 0 <= i < i1 && 0 <= k < |nfl| ==> !Fails(i, pfr[i], k, nfl[k])
    {
      var m := BestMatch(i1, pfr[i1], nfl, sim);
      if m.Err? {
        return Err(m.error);
      }
      matches := matches + [m.value];
      i1 := i1 + 1;
    }
    return Ok(matches);
  }
}

=== FILE: results.dfy ===
/** Optional values and error-carrying results used by every module of the model.

    Python code in the modelled system signals "no value" with `None` and failure
    by raising; the model writes both out as data. */
module Results {

  /** A value that may be missing (Python's `None`). */
  datatype Option<+T> = None | Some(value: T) {
    function GetOr(default: T): T {
      match this
      case Some(v) => v
      case None => default
    }
  }

  /** A computation that either produced a value or stopped with an error
      (an exception in the source). */
  datatype Result<+T, +E> = Ok(value: T) | Err(error: E)

  /** A field of a stored document: the key may be missing, present with a null
      value, or present with a value. The distinction matters because the source
      tests key presence (`has_key`, `'x' in r`) separately from `None`. */
  datatype Field<+T> = Absent | Null | Value(value: T)
}

=== FILE: schedule.dfy ===
/** `nflfanfare/schedule.py`: the Pro-Football-Reference schedule pipeline
    (CSV clean-up, season-year fix, boxscore links, nflgame team codes), the
    older game-status classifier, post-to-game attribution, completion and
    tweet counts over the stored games. */
module Schedule {
  import opened Results
  import opened Seqs
  import opened Strings
  import opened Clock

  // ---------------------------------------------------------------------------
  // CSV clean-up (`pending_games_csv`, `completed_games_csv`)

  /** A line of a scraped CSV block that carries data: non-empty, not a
      continuation starting with ',', and not a repeated header (recognised
      by a header word such as "Week"). */
  predicate IsDataLine(line: string, header: string) {
    line != "" && line[0] != ',' && !Contains(line, header)
  }

  /** The data lines of a block, in order. */
  function DataLines(lines: seq<string>, header: string): (r: seq<string>)
    ensures forall k :: 0 <= k < |r| ==> IsDataLine(r[k], header) && r[k] in lines
    ensures forall k :: 0 <= k < |lines| && IsDataLine(lines[k], header) ==> lines[k] in r
    ensures IsSubsequence(r, lines)
  {
    Filter(lines, l => IsDataLine(l, header))
  }

  /** Each line with a prefix, the way they are written out. */
  function Prefixed(prefix: string, lines: seq<string>): (r: seq<string>)
    ensures |r| == |lines|
    ensures forall k :: 0 <= k < |lines| ==> r[k] == prefix + lines[k]
  {
    seq(|lines|, k requires 0 <= k < |lines| => prefix + lines[k])
  }

  /** `csv += '%s%s\n' % (prefix, line)` over the lines. */
  function Emit(prefix: string, lines: seq<string>): string
    decreases |lines|
  {
    if |lines| == 0 then "" else prefix + lines[0] + "\n" + Emit(prefix, lines[1..])
  }

  /** Splitting the emitted text on newlines gives back the prefixed lines and a
      final empty piece after the last newline. */
  lemma {:induction false} SplitEmit(prefix: string, lines: seq<string>)
    requires '\n' !in prefix
    requires forall k :: 0 <= k < |lines| ==> '\n' !in lines[k]
    ensures Split(Emit(prefix, lines), '\n') == Prefixed(prefix, lines) + [""]
    decreases |lines|
  {
    if |lines| > 0 {
      var head := prefix + lines[0];
      assert '\n' !in head by {
        forall k | 0 <= k < |head| ensures head[k] != '\n' {
          if k < |prefix| { assert head[k] == prefix[k]; } else { assert head[k] == lines[0][k - |prefix|]; }
        }
      }
      SplitEmit(prefix, lines[1..]);
      SplitAtSeparator(head, Emit(prefix, lines[1..]), '\n');
      assert Prefixed(prefix, lines) == [head] + Prefixed(prefix, lines[1..]);
    }
  }

  /** The clean-up of a scraped CSV block: keep the data lines and write each
      as `prefix + line + "\n"`. Read back line by line, the result is exactly
      the prefixed data lines of the input, in input order. */
  function CleanCsv(prefix: string, header: string, text: string): (r: string)
    ensures '\n' !in prefix ==>
      Split(r, '\n') == Prefixed(prefix, DataLines(Split(text, '\n'), header)) + [""]
  {
    var kept := DataLines(Split(text, '\n'), header);
    if '\n' !in prefix then
      SplitPiecesFree(text, '\n');
      SplitEmit(prefix, kept);
      Emit(prefix, kept)
    else
      Emit(prefix, kept)
  }

  /** The schedule CSVs: drop lines mentioning "Week" and prefix the season year. */
  function ScheduleCsv(year: nat, text: string): (r: string)
    ensures Split(r, '\n') == Prefixed(Digits(year) + ",", DataLines(Split(text, '\n'), "Week")) + [""]
  {
    var prefix := Digits(year) + ",";
    assert '\n' !in prefix by {
      forall k | 0 <= k < |prefix| ensures prefix[k] != '\n' {
        if k < |Digits(year)| {
          assert IsDigit(Digits(year)[k]);
        }
      }
    }
    CleanCsv(prefix, "Week", text)
  }

  // ---------------------------------------------------------------------------
  // Season year and boxscore links (`completed_games_df`, `pfr_boxscore_link`)

  /** The "year offset fix": a season's games from January to June are played in
      the next calendar year. */
  function CalendarYear(season: int, month: int): (y: int)
    ensures y == season || y == season + 1
    ensures y == season + 1 <==> month < 7
  {
    if month < 7 then season + 1 else season
  }

  /** The inverse: the season a calendar date belongs to. */
  function SeasonOf(year: int, month: int): int {
    if month < 7 then year - 1 else year
  }

  /** The fix and its inverse undo each other for every month. */
  lemma CalendarYearRoundTrip(season: int, year: int, month: int)
    ensures SeasonOf(CalendarYear(season, month), month) == season
    ensures CalendarYear(SeasonOf(year, month), month) == year
  {
  }

  /** `'0' + str(x) if len(str(x)) == 1 else x`. */
  function PadTwo(s: string): (r: string)
    ensures |s| == 1 ==> |r| == 2 && r[0] == '0' && r[1..] == s
    ensures |s| != 1 ==> r == s
  {
    if |s| == 1 then "0" + s else s
  }

  const BOXSCORE_BASE: string := "http://www.pro-football-reference.com/boxscores/"

  /** `pfr_boxscore_link`: base, year, two-digit month and day, a literal 0,
      the home team's PFR id, ".htm". */
  function BoxscoreLink(year: nat, month: nat, day: nat, pfrid: string): (r: string)
    ensures HasPrefix(r, BOXSCORE_BASE + Digits(year))
    ensures HasSuffix(r, "0" + pfrid + ".htm")
  {
    var head := BOXSCORE_BASE + Digits(year);
    var date := PadTwo(Digits(month)) + PadTwo(Digits(day));
    var tail := "0" + pfrid + ".htm";
    var r := head + date + tail;
    assert r[..|head|] == head;
    assert r[|r| - |tail|..] == tail;
    r
  }

  /** A two-digit field read back as a number gives the month or day. */
  lemma PadTwoParses(n: nat)
    requires n < 100
    ensures |PadTwo(Digits(n))| == 2
    ensures AllDigits(PadTwo(Digits(n)))
    ensures ParseDigits(PadTwo(Digits(n))) == n
  {
    ParseDigitsOfDigits(n);
    if n < 10 {
      ParseDigitsLeadingZero(Digits(n));
    }
  }

  /** Round trip: for a four-digit year and month and day below 100, the date
      can be read back from fixed positions of the link, and the team part is
      what follows them. */
  lemma BoxscoreLinkDecodes(year: nat, month: nat, day: nat, pfrid: string)
    requires 1000 <= year <= 9999 && month < 100 && day < 100
    ensures var r := BoxscoreLink(year, month, day, pfrid);
      var b := |BOXSCORE_BASE|;
      && |r| == b + 8 + 1 + |pfrid| + 4
      && r[..b] == BOXSCORE_BASE
      && AllDigits(r[b..b + 4]) && ParseDigits(r[b..b + 4]) == year
      && AllDigits(r[b + 4..b + 6]) && ParseDigits(r[b + 4..b + 6]) == month
      && AllDigits(r[b + 6..b + 8]) && ParseDigits(r[b + 6..b + 8]) == day
      && r[b + 8..] == "0" + pfrid + ".htm"
  {
    var r := BoxscoreLink(year, month, day, pfrid);
    var b := |BOXSCORE_BASE|;
    var y, m, d := Digits(year), PadTwo(Digits(month)), PadTwo(Digits(day));
    PadTwoParses(month);
    PadTwoParses(day);
    ParseDigitsOfDigits(year);
    assert r == BOXSCORE_BASE + y + m + d + ("0" + pfrid + ".htm");
    assert r[b..b + 4] == y;
    assert r[b + 4..b + 6] == m;
    assert r[b + 6..b + 8] == d;
  }

  // ---------------------------------------------------------------------------
  // nflgame lookups (`nflgame_info`)

  /** The "Jacksonville fix": nflgame spells the team JAC where the rest of the
      system uses JAX. */
  function NflgameCode(team: string): (r: string)
    ensures team == "JAX" <==> r == "JAC" && team != "JAC"
    ensures team != "JAX" ==> r == team
  {
    if team == "JAX" then "JAC" else team
  }

  /** The nflgame query `nflgame_info` issues: a numbered week when the week
      text is all digits, otherwise the postseason. */
  datatype NflgameQuery =
    | ByWeek(year: int, week: nat, home: string, away: string)
    | Postseason(year: int, home: string, away: string)

  function NflgameInfoQuery(home: string, away: string, year: int, week: string): (q: NflgameQuery)
    ensures q.ByWeek? <==> |week| > 0 && AllDigits(week)
    ensures q.ByWeek? ==> q.week == ParseDigits(week)
    ensures q.home == NflgameCode(home) && q.away == NflgameCode(away) && q.year == year
  {
    if |week| > 0 && AllDigits(week) then ByWeek(year, ParseDigits(week), NflgameCode(home), NflgameCode(away))
    else Postseason(year, NflgameCode(home), NflgameCode(away))
  }

  // ---------------------------------------------------------------------------
  // Stored games of the schedule pipeline

  /** A stored start time. `start_time` returns the kickoff as text
      (`str(starttime)`), and `add_game` stores what it is given, so a stored
      start time is either that text or a date value. */
  datatype StartTime = At(instant: Instant) | AsText(text: string)

  /** A game as `add_game` / `add_pfr_info` store it. The id is null when
      nflgame had no match; the start time may be missing or null; `endtime` is
      set once the boxscore has been scraped. */
  datatype ScheduleDoc = ScheduleDoc(
    gameid: Field<string>,
    hometeam: string,
    awayteam: string,
    starttime: Field<StartTime>,
    endtime: Field<Instant>)

  /** The stored start time is a date value. */
  predicate HasInstant(d: ScheduleDoc) {
    d.starttime.Value? && d.starttime.value.At?
  }

  /** The stored start time is text. */
  predicate HasTextStart(d: ScheduleDoc) {
    d.starttime.Value? && d.starttime.value.AsText?
  }

  /** `find_one({'gameid': gameid})`. */
  function FindScheduled(db: seq<ScheduleDoc>, gameid: string): (r: Option<ScheduleDoc>)
    ensures r.Some? ==> r.value.gameid == Value(gameid) && r.value in db
    ensures r.None? <==> forall k :: 0 <= k < |db| ==> db[k].gameid != Value(gameid)
  {
    var i := FindFirst(db, (d: ScheduleDoc) => d.gameid == Value(gameid));
    if i.Some? then Some(db[i.value]) else None
  }

  /** `is_complete`: a stored game with a non-null `endtime`. */
  function IsComplete(db: seq<ScheduleDoc>, gameid: string): (b: bool)
    ensures b <==> (exists k :: 0 <= k < |db| && db[k].gameid == Value(gameid) && db[k].endtime.Value? &&
                      forall j :: 0 <= j < k ==> db[j].gameid != Value(gameid))
  {
    var i := FindFirst(db, (d: ScheduleDoc) => d.gameid == Value(gameid));
    i.Some? && db[i.value].endtime.Value?
  }

  // ---------------------------------------------------------------------------
  // `game_status`

  /** The instants where every strict comparison of `game_status` fails. */
  predicate StatusGap(start: Instant, now: Instant) {
    start - PREGAME_LEAD == now - WEEK || start + POSTGAME_LAG == now || start - PREGAME_LEAD == now
  }

  /** `game_status` on a start time: the older classifier, which compares the
      pregame instant (an hour before kickoff) where `_state` compares kickoff
      itself, and has no "starting" phase. */
  function GameStatus(start: Instant, now: Instant, localNow: Instant): (r: Option<Phase>)
    ensures r == Some(Historic) <==> start - PREGAME_LEAD < now - WEEK
    ensures r == Some(Recent) <==> now - WEEK < start - PREGAME_LEAD && start + POSTGAME_LAG < now
    ensures r == Some(Live) <==> now - POSTGAME_LAG < start < now + PREGAME_LEAD
    ensures r == Some(Upcoming) <==> now < start - PREGAME_LEAD < now + HOUR
    ensures r == Some(Pending) <==> localNow < start - PREGAME_LEAD && (StatusGap(start, now) || now + HOUR <= start - PREGAME_LEAD)
    ensures r != Some(Starting)
  {
    var w := GameWindow(start);
    var oneweek := now - WEEK;
    var upcoming := now + HOUR;
    if w.pregame < oneweek then Some(Historic)
    else if w.pregame > oneweek && w.postgame < now then Some(Recent)
    else if w.pregame < now && w.postgame > now then Some(Live)
    else if w.pregame > now && w.pregame < upcoming then Some(Upcoming)
    else if w.pregame > localNow then Some(Pending)
    else None
  }

  datatype LookupError =
    | NotFound(gameid: string)        // `find_one` returned `None`
    | NoStartTime(gameid: string)     // `None - timedelta` raises
    | TextStartTime(gameid: string)   // `str - timedelta` raises
    | TextInProjection                // `$subtract` of a string fails the aggregation

  /** `game_status(gameid)`: looking up a missing game, or a game whose start
      time is missing, null or text, raises instead of answering. */
  function GameStatusOf(db: seq<ScheduleDoc>, gameid: string, now: Instant, localNow: Instant): (r: Result<Option<Phase>, LookupError>)
    ensures FindScheduled(db, gameid).None? ==> r == Err(NotFound(gameid))
    ensures FindScheduled(db, gameid).Some? && HasTextStart(FindScheduled(db, gameid).value) ==>
      r == Err(TextStartTime(gameid))
    ensures r.Ok? <==> FindScheduled(db, gameid).Some? && HasInstant(FindScheduled(db, gameid).value)
    ensures r.Ok? ==> r.value == GameStatus(FindScheduled(db, gameid).value.starttime.value.instant, now, localNow)
  {
    match FindScheduled(db, gameid)
    case None => Err(NotFound(gameid))
    case Some(doc) =>
      match doc.starttime
      case Value(At(start)) => Ok(GameStatus(start, now, localNow))
      case Value(AsText(_)) => Err(TextStartTime(gameid))
      case _ => Err(NoStartTime(gameid))
  }

  // ---------------------------------------------------------------------------
  // `gameid_from_team_and_time`

  /** The `$match` stage: the team plays in the game and the post falls in the
      window that is open on the left and closed on the right. A game without
      a start time never matches: `$subtract` of null is null, and `$lt` on a
      date matches dates only. (The aggregation computes in milliseconds; its
      one-hour constant is one hour here.) */
  predicate Attributed(d: ScheduleDoc, teamid: string, posted: Instant) {
    (d.hometeam == teamid || d.awayteam == teamid) &&
    HasInstant(d) &&
    d.starttime.value.instant - HOUR < posted <= d.starttime.value.instant + 4 * HOUR
  }

  /** A matched document the loop stops at: any document that has a `gameid` key. */
  predicate Answers(d: ScheduleDoc, teamid: string, posted: Instant) {
    Attributed(d, teamid, posted) && !d.gameid.Absent?
  }

  /** The `$match` stage and the loop over its output: the id of the first
      matching game that has a `gameid` key. A null id ends the search with
      `None` as well. */
  function FirstMatchedId(db: seq<ScheduleDoc>, teamid: string, posted: Instant): (r: Option<string>)
    ensures r.Some? ==> (exists k :: 0 <= k < |db| && Answers(db[k], teamid, posted) &&
                           db[k].gameid == Value(r.value) && forall j :: 0 <= j < k ==> !Answers(db[j], teamid, posted))
    ensures (forall k :: 0 <= k < |db| ==> !Attributed(db[k], teamid, posted)) ==> r.None?
    ensures (exists k :: 0 <= k < |db| && Answers(db[k], teamid, posted) && db[k].gameid.Value? &&
               forall j :: 0 <= j < k ==> !Answers(db[j], teamid, posted)) ==> r.Some?
    decreases |db|
  {
    if |db| == 0 then None
    else if Answers(db[0], teamid, posted) then
      (if db[0].gameid.Value? then Some(db[0].gameid.value) else None)
    else
      var r := FirstMatchedId(db[1..], teamid, posted);
      assert forall k :: 1 <= k < |db| ==> db[1..][k - 1] == db[k];
      r
  }

  /** `gameid_from_team_and_time`: the `$project` stage computes the window of
      every stored game before `$match` filters, so one stored game whose start
      time is text fails the whole aggregation; otherwise the answer is the
      first matching game's id. */
  function GameIdFromTeamAndTime(db: seq<ScheduleDoc>, teamid: string, posted: Instant): (r: Result<Option<string>, LookupError>)
    ensures r.Err? <==> exists k :: 0 <= k < |db| && HasTextStart(db[k])
    ensures r.Ok? ==> r.value == FirstMatchedId(db, teamid, posted)
  {
    if FindFirst(db, HasTextStart).Some? then Err(TextInProjection)
    else Ok(FirstMatchedId(db, teamid, posted))
  }

  /** The attribution window is the game window, open at the pregame instant
      and closed at the postgame instant. */
  lemma AttributionWindow(d: ScheduleDoc, teamid: string, posted: Instant)
    requires d.hometeam == teamid || d.awayteam == teamid
    requires HasInstant(d)
    ensures var w := GameWindow(d.starttime.value.instant);
      Attributed(d, teamid, posted) <==> w.pregame < posted <= w.postgame
    ensures !Attributed(d, teamid, GameWindow(d.starttime.value.instant).pregame)
    ensures Attributed(d, teamid, GameWindow(d.starttime.value.instant).postgame)
  {
  }

  // ---------------------------------------------------------------------------
  // `game_tweet_counts`

  /** A stored tweet: its game, team and compound score; a missing score is `None`. */
  datatype TweetDoc = TweetDoc(gameid: string, teamid: string, compound: Option<real>)

  /** The query of one count: the game and team match and the score is not 0
      (`$ne` also matches a missing score). */
  predicate Scored(t: TweetDoc, gameid: string, teamid: string) {
    t.gameid == gameid && t.teamid == teamid && t.compound != Some(0.0)
  }

  /** The query of one count as a test on tweets. */
  function ScoredBy(gameid: string, teamid: string): TweetDoc -> bool {
    t => Scored(t, gameid, teamid)
  }

  datatype TweetCounts = TweetCounts(hometeam: nat, awayteam: nat, total: nat)

  /** `game_tweet_counts`: scored tweets per team of the game, and their total. */
  function GameTweetCounts(db: seq<ScheduleDoc>, tweets: seq<TweetDoc>, gameid: string): (r: Result<TweetCounts, LookupError>)
    ensures r.Err? <==> FindScheduled(db, gameid).None?
    ensures r.Ok? ==> r.value.total == r.value.hometeam + r.value.awayteam
    ensures r.Ok? ==> r.value.hometeam <= |tweets| && r.value.awayteam <= |tweets|
    ensures r.Ok? ==> (r.value.hometeam == 0 <==>
      forall k :: 0 <= k < |tweets| ==> !Scored(tweets[k], gameid, FindScheduled(db, gameid).value.hometeam))
    ensures r.Ok? ==> var doc := FindScheduled(db, gameid).value;
      && r.value.hometeam == |Filter(tweets, ScoredBy(gameid, doc.hometeam))|
      && r.value.awayteam == |Filter(tweets, ScoredBy(gameid, doc.awayteam))|
  {
    match FindScheduled(db, gameid)
    case None => Err(NotFound(gameid))
    case Some(doc) =>
      CountIsFilterLength(tweets, ScoredBy(gameid, doc.hometeam));
      CountIsFilterLength(tweets, ScoredBy(gameid, doc.awayteam));
      var home := Count(tweets, ScoredBy(gameid, doc.hometeam));
      var away := Count(tweets, ScoredBy(gameid, doc.awayteam));
      Ok(TweetCounts(home, away, home + away))
  }

  /** One more stored tweet adds one to the count of each team it is scored
      for, and nothing to the other. */
  lemma CountsAfterTweet(db: seq<ScheduleDoc>, tweets: seq<TweetDoc>, gameid: string, t: TweetDoc)
    requires FindScheduled(db, gameid).Some?
    ensures var doc := FindScheduled(db, gameid).value;
      var before := GameTweetCounts(db, tweets, gameid).value;
      var after := GameTweetCounts(db, tweets + [t], gameid).value;
      && after.hometeam == before.hometeam + (if Scored(t, gameid, doc.hometeam) then 1 else 0)
      && after.awayteam == before.awayteam + (if Scored(t, gameid, doc.awayteam) then 1 else 0)
  {
    var doc := FindScheduled(db, gameid).value;
    CountAppend(tweets, t, ScoredBy(gameid, doc.hometeam));
    CountAppend(tweets, t, ScoredBy(gameid, doc.awayteam));
  }

  /** Unscored tweets (score exactly 0) and tweets of other games never change
      the counts. */
  lemma UncountedTweetsIgnored(db: seq<ScheduleDoc>, tweets: seq<TweetDoc>, gameid: string, t: TweetDoc)
    requires t.compound == Some(0.0) || t.gameid != gameid
    ensures GameTweetCounts(db, tweets + [t], gameid) == GameTweetCounts(db, tweets, gameid)
  {
    if FindScheduled(db, gameid).Some? {
      var doc := FindScheduled(db, gameid).value;
      CountsAfterTweet(db, tweets, gameid, t);
      assert !Scored(t, gameid, doc.hometeam) && !Scored(t, gameid, doc.awayteam);
      var before := GameTweetCounts(db, tweets, gameid).value;
      var after := GameTweetCounts(db, tweets + [t], gameid).value;
      assert after == before;
    }
  }
}

=== FILE: seqs.dfy ===
/** Sequence helpers standing in for the source's list comprehensions,
    DataFrame row filters and `find_one` lookups. */
module Seqs {
  import opened Results

  /** `a` can be obtained from `b` by deleting elements (order is kept). */
  predicate IsSubsequence<T(==)>(a: seq<T>, b: seq<T>)
    decreases |b|
  {
    |a| <= |b| &&
    (|a| == 0 || (a[0] == b[0] && IsSubsequence(a[1..], b[1..])) || IsSubsequence(a, b[1..]))
  }

  /** The elements of `xs` satisfying `keep`, in their original order
      (`[x for x in xs if keep(x)]`, or a boolean-mask row selection). */
  function Filter<T(==)>(xs: seq<T>, keep: T -> bool): (r: seq<T>)
    ensures forall k :: 0 <= k < |r| ==> keep(r[k]) && r[k] in xs
    ensures forall k :: 0 <= k < |xs| && keep(xs[k]) ==> xs[k] in r
    ensures IsSubsequence(r, xs)
    ensures (forall k :: 0 <= k < |xs| ==> keep(xs[k])) ==> r == xs
    decreases |xs|
  {
    if |xs| == 0 then []
    else
      var rest := Filter(xs[1..], keep);
      assert xs == [xs[0]] + xs[1..];
      if keep(xs[0]) then [xs[0]] + rest else rest
  }

  /** Index of the first element satisfying `p` (the document `find_one` returns
      when the collection is read in its natural order). */
  function FindFirst<T>(xs: seq<T>, p: T -> bool): (r: Option<nat>)
    ensures r.Some? ==> r.value < |xs| && p(xs[r.value])
    ensures r.Some? ==> forall k :: 0 <= k < r.value ==> !p(xs[k])
    ensures r.None? <==> forall k :: 0 <= k < |xs| ==> !p(xs[k])
    decreases |xs|
  {
    if |xs| == 0 then None
    else if p(xs[0]) then Some(0)
    else
      match FindFirst(xs[1..], p)
      case None => None
      case Some(k) => Some(k + 1)
  }

  /** `len([x for x in xs if p(x)])`, the value of a `.find(query).count()`. */
  function Count<T>(xs: seq<T>, p: T -> bool): (n: nat)
    ensures n <= |xs|
    ensures n == 0 <==> forall k :: 0 <= k < |xs| ==> !p(xs[k])
    decreases |xs|
  {
    if |xs| == 0 then 0
    else (if p(xs[0]) then 1 else 0) + Count(xs[1..], p)
  }

  /** Counting over a sequence with one more element at its end. */
  lemma {:induction false} CountAppend<T>(xs: seq<T>, x: T, p: T -> bool)
    ensures Count(xs + [x], p) == Count(xs, p) + (if p(x) then 1 else 0)
    decreases |xs|
  {
    if |xs| > 0 {
      assert (xs + [x])[1..] == xs[1..] + [x];
      CountAppend(xs[1..], x, p);
    }
  }

  /** Counting is the length of the filtered sequence. */
  lemma {:induction false} CountIsFilterLength<T>(xs: seq<T>, p: T -> bool)
    ensures Count(xs, p) == |Filter(xs, p)|
    decreases |xs|
  {
    if |xs| > 0 {
      CountIsFilterLength(xs[1..], p);
    }
  }

  /** Filtering distributes over concatenation. */
  lemma {:induction false} FilterAppend<T>(a: seq<T>, b: seq<T>, keep: T -> bool)
    ensures Filter(a + b, keep) == Filter(a, keep) + Filter(b, keep)
    decreases |a|
  {
    if |a| > 0 {
      assert (a + b)[1..] == a[1..] + b;
      FilterAppend(a[1..], b, keep);
    } else {
      assert a + b == b;
    }
  }

  /** Index of the last element satisfying `p` (`df[p].iloc[-1]`). */
  function FindLast<T>(xs: seq<T>, p: T -> bool): (r: Option<nat>)
    ensures r.Some? ==> r.value < |xs| && p(xs[r.value])
    ensures r.Some? ==> forall k :: r.value < k < |xs| ==> !p(xs[k])
    ensures r.None? <==> forall k :: 0 <= k < |xs| ==> !p(xs[k])
    decreases |xs|
  {
    if |xs| == 0 then None
    else if p(xs[|xs| - 1]) then Some(|xs| - 1)
    else FindLast(xs[..|xs| - 1], p)
  }
}

=== FILE: strings.dfy ===
/** Python string operations the modelled code relies on: `in` on strings,
    `str.split`, `str.join`, `str.replace`, `str.split()` on whitespace,
    `str.lower`, `str()` of a non-negative integer, and `<` on strings. */
module Strings {
  import opened Seqs

  // ---------------------------------------------------------------------------
  // Substrings

  predicate HasPrefix(s: string, p: string) {
    |p| <= |s| && s[..|p|] == p
  }

  predicate HasSuffix(s: string, p: string) {
    |p| <= |s| && s[|s| - |p|..] == p
  }

  /** A concatenation of three parts starts with the first, holds the second
      right after it, and ends with the last. */
  lemma ConcatAffixes(a: string, b: string, c: string)
    ensures HasPrefix(a + b + c, a) && HasSuffix(a + b + c, c)
    ensures (a + b + c)[|a|..|a| + |b|] == b
  {
    assert (a + b + c)[..|a|] == a;
    assert (a + b + c)[|a + b + c| - |c|..] == c;
    assert (a + b + c)[|a|..|a| + |b|] == b;
  }

  /** Python's `sub in s`. */
  predicate Contains(s: string, sub: string)
    decreases |s|
  {
    HasPrefix(s, sub) || (|s| > 0 && Contains(s[1..], sub))
  }

  // ---------------------------------------------------------------------------
  // Character removal (`re.sub(r'\\|\"|\'', '', s)` and friends)

  /** `s` with every character of `drop` removed, the others kept in order. */
  function RemoveChars(s: string, drop: set<char>): (r: string)
    ensures forall c :: c in drop ==> c !in r
    ensures forall c :: c !in drop ==> multiset(r)[c] == multiset(s)[c]
    ensures |r| <= |s|
    ensures IsSubsequence(r, s)
    decreases |s|
  {
    if |s| == 0 then ""
    else if s[0] in drop then
      var rest := RemoveChars(s[1..], drop);
      assert s == [s[0]] + s[1..];
      rest
    else
      var rest := RemoveChars(s[1..], drop);
      assert s == [s[0]] + s[1..];
      [s[0]] + rest
  }

  lemma {:induction false} RemoveCharsNoOp(s: string, drop: set<char>)
    requires forall c :: c in s ==> c !in drop
    ensures RemoveChars(s, drop) == s
    decreases |s|
  {
    if |s| > 0 {
      RemoveCharsNoOp(s[1..], drop);
    }
  }

  // ---------------------------------------------------------------------------
  // Split and join on a single separator character

  /** Python's `s.split(sep)` for a one-character separator: always at least one
      piece, empty pieces kept, `"".split(sep) == [""]`. */
  function Split(s: string, sep: char): (r: seq<string>)
    ensures |r| >= 1
    decreases |s|
  {
    if |s| == 0 then [""]
    else if s[0] == sep then [""] + Split(s[1..], sep)
    else
      var rest := Split(s[1..], sep);
      [[s[0]] + rest[0]] + rest[1..]
  }

  /** No piece produced by `Split` contains the separator. */
  lemma {:induction false} SplitPiecesFree(s: string, sep: char)
    ensures forall k :: 0 <= k < |Split(s, sep)| ==> sep !in Split(s, sep)[k]
    decreases |s|
  {
    if |s| > 0 {
      SplitPiecesFree(s[1..], sep);
    }
  }

  /** Python's `sep.join(xs)`. */
  function Join(xs: seq<string>, sep: char): string
    decreases |xs|
  {
    if |xs| == 0 then ""
    else if |xs| == 1 then xs[0]
    else xs[0] + [sep] + Join(xs[1..], sep)
  }

  /** Splitting `a + b` where `a` has no separator glues `a` onto the first piece of `b`. */
  lemma {:induction false} SplitGlued(a: string, b: string, sep: char)
    requires sep !in a
    ensures Split(a + b, sep) == [a + Split(b, sep)[0]] + Split(b, sep)[1..]
    decreases |a|
  {
    if |a| == 0 {
      assert a + b == b;
      assert a + Split(b, sep)[0] == Split(b, sep)[0];
      assert Split(b, sep) == [Split(b, sep)[0]] + Split(b, sep)[1..];
    } else {
      assert (a + b)[0] == a[0];
      assert (a + b)[1..] == a[1..] + b;
      SplitGlued(a[1..], b, sep);
      assert [a[0]] + (a[1..] + Split(b, sep)[0]) == a + Split(b, sep)[0];
    }
  }

  /** A separator-free string ends the piece it is in: `a + sep + b` splits as `a`
      followed by the pieces of `b`. */
  lemma SplitAtSeparator(a: string, b: string, sep: char)
    requires sep !in a
    ensures Split(a + [sep] + b, sep) == [a] + Split(b, sep)
  {
    assert a + [sep] + b == a + ([sep] + b);
    SplitGlued(a, [sep] + b, sep);
    assert ([sep] + b)[1..] == b;
    assert Split([sep] + b, sep) == [""] + Split(b, sep);
    assert a + "" == a;
  }

  lemma SplitSingle(a: string, sep: char)
    requires sep !in a
    ensures Split(a, sep) == [a]
  {
    SplitGlued(a, "", sep);
    assert a + "" == a;
  }

  /** Round trip: splitting a join gives the pieces back when no piece holds the separator. */
  lemma {:induction false} SplitJoin(xs: seq<string>, sep: char)
    requires |xs| >= 1
    requires forall k :: 0 <= k < |xs| ==> sep !in xs[k]
    ensures Split(Join(xs, sep), sep) == xs
    decreases |xs|
  {
    if |xs| == 1 {
      SplitSingle(xs[0], sep);
    } else {
      SplitJoin(xs[1..], sep);
      SplitAtSeparator(xs[0], Join(xs[1..], sep), sep);
      assert [xs[0]] + xs[1..] == xs;
    }
  }

  // ---------------------------------------------------------------------------
  // Replacement (`str.replace(pat, rep)`: left to right, non-overlapping)

  function ReplaceAll(s: string, pat: string, rep: string): string
    requires |pat| > 0
    decreases |s|
  {
    if HasPrefix(s, pat) then rep + ReplaceAll(s[|pat|..], pat, rep)
    else if |s| == 0 then ""
    else [s[0]] + ReplaceAll(s[1..], pat, rep)
  }

  lemma {:induction false} ReplaceAllNoOccurrence(s: string, pat: string, rep: string)
    requires |pat| > 0
    requires !Contains(s, pat)
    ensures ReplaceAll(s, pat, rep) == s
    decreases |s|
  {
    if |s| > 0 {
      ReplaceAllNoOccurrence(s[1..], pat, rep);
      assert [s[0]] + s[1..] == s;
    }
  }

  lemma {:induction false} ReplaceAllSameLength(s: string, pat: string, rep: string)
    requires |pat| == |rep| > 0
    ensures |ReplaceAll(s, pat, rep)| == |s|
    decreases |s|
  {
    if HasPrefix(s, pat) {
      ReplaceAllSameLength(s[|pat|..], pat, rep);
    } else if |s| > 0 {
      ReplaceAllSameLength(s[1..], pat, rep);
    }
  }

  // ---------------------------------------------------------------------------
  // Whitespace splitting (`str.split()` with no argument)

  /** Python's `str.isspace` on one ASCII character. */
  predicate IsSpace(c: char) {
    c == ' ' || c == '\t' || c == '\n' || c == '\r' || c == 11 as char || c == 12 as char
  }

  predicate NoSpace(s: string) {
    forall k :: 0 <= k < |s| ==> !IsSpace(s[k])
  }

  /** Length of the run of non-space characters at the front of `s`. */
  function WordLength(s: string): (n: nat)
    ensures n <= |s|
    ensures NoSpace(s[..n])
    ensures n < |s| ==> IsSpace(s[n])
    decreases |s|
  {
    if |s| == 0 || IsSpace(s[0]) then 0
    else
      var n := 1 + WordLength(s[1..]);
      assert s[..n] == [s[0]] + s[1..][..n - 1];
      n
  }

  /** Python's `s.split()`: maximal runs of non-space characters, in order. */
  function Words(s: string): (r: seq<string>)
    ensures forall k :: 0 <= k < |r| ==> |r[k]| > 0 && NoSpace(r[k])
    decreases |s|
  {
    if |s| == 0 then []
    else if IsSpace(s[0]) then Words(s[1..])
    else
      var n := WordLength(s);
      [s[..n]] + Words(s[n..])
  }

  lemma {:induction false} WordLengthOfWord(a: string, rest: string)
    requires NoSpace(a)
    requires |rest| == 0 || IsSpace(rest[0])
    ensures WordLength(a + rest) == |a|
    decreases |a|
  {
    if |a| > 0 {
      assert (a + rest)[1..] == a[1..] + rest;
      WordLengthOfWord(a[1..], rest);
    } else {
      assert a + rest == rest;
    }
  }

  lemma WordsOfWord(a: string)
    requires |a| > 0 && NoSpace(a)
    ensures Words(a) == [a]
  {
    WordLengthOfWord(a, "");
    assert a + "" == a;
    assert a[|a|..] == "";
  }

  /** Two space-free words joined by one blank split back into those two words. */
  lemma WordsOfPair(a: string, b: string)
    requires |a| > 0 && NoSpace(a)
    requires |b| > 0 && NoSpace(b)
    ensures Words(a + " " + b) == [a, b]
  {
    var s := a + " " + b;
    WordLengthOfWord(a, " " + b);
    assert s == a + (" " + b);
    assert s[..|a|] == a;
    assert s[|a|..] == " " + b;
    assert (" " + b)[1..] == b;
    WordsOfWord(b);
  }

  // ---------------------------------------------------------------------------
  // Case

  /** Python's `str.lower` on ASCII letters; other characters are unchanged. */
  function Lower(s: string): (r: string)
    ensures |r| == |s|
    ensures forall k :: 0 <= k < |s| ==> r[k] == LowerChar(s[k])
  {
    seq(|s|, k requires 0 <= k < |s| => LowerChar(s[k]))
  }

  function LowerChar(c: char): char {
    if 'A' <= c <= 'Z' then (c as int + 32) as char else c
  }

  // ---------------------------------------------------------------------------
  // Decimal numerals (`str(n)` and `int(s)` for non-negative n)

  function DigitChar(d: nat): (c: char)
    requires d < 10
    ensures '0' <= c <= '9'
  {
    (48 + d) as char
  }

  predicate IsDigit(c: char) {
    '0' <= c <= '9'
  }

  predicate AllDigits(s: string) {
    forall k :: 0 <= k < |s| ==> IsDigit(s[k])
  }

  /** `str(n)` for a non-negative integer. */
  function Digits(n: nat): (r: string)
    ensures |r| >= 1
    ensures AllDigits(r)
    ensures |r| == 1 <==> n < 10
    ensures 10 <= n < 100 ==> |r| == 2
    ensures 1000 <= n < 10000 ==> |r| == 4
    decreases n
  {
    if n < 10 then [DigitChar(n)] else Digits(n / 10) + [DigitChar(n % 10)]
  }

  /** `int(s)` for a string of decimal digits. */
  function ParseDigits(s: string): nat
    requires AllDigits(s)
    decreases |s|
  {
    if |s| == 0 then 0
    else ParseDigits(s[..|s| - 1]) * 10 + (s[|s| - 1] as int - 48)
  }

  /** Round trip: reading back `str(n)` gives `n`. */
  lemma {:induction false} ParseDigitsOfDigits(n: nat)
    ensures ParseDigits(Digits(n)) == n
    decreases n
  {
    var s := Digits(n);
    if n >= 10 {
      ParseDigitsOfDigits(n / 10);
      assert s[..|s| - 1] == Digits(n / 10);
    }
  }

  /** A leading zero does not change the value of a numeral. */
  lemma {:induction false} ParseDigitsLeadingZero(s: string)
    requires AllDigits(s)
    ensures AllDigits("0" + s)
    ensures ParseDigits("0" + s) == ParseDigits(s)
    decreases |s|
  {
    if |s| > 0 {
      var t := "0" + s;
      assert t[..|t| - 1] == "0" + s[..|s| - 1];
      ParseDigitsLeadingZero(s[..|s| - 1]);
    }
  }

  // ---------------------------------------------------------------------------
  // Lexicographic order (Python's `<` on strings)

  predicate Less(a: string, b: string)
    decreases |a|
  {
    if |a| == 0 then |b| > 0
    else if |b| == 0 then false
    else a[0] < b[0] || (a[0] == b[0] && Less(a[1..], b[1..]))
  }

  lemma {:induction false} LessIrreflexive(a: string)
    ensures !Less(a, a)
    decreases |a|
  {
    if |a| > 0 {
      LessIrreflexive(a[1..]);
    }
  }

  lemma {:induction false} LessTransitive(a: string, b: string, c: string)
    requires Less(a, b) && Less(b, c)
    ensures Less(a, c)
    decreases |a|
  {
    if |a| > 0 && a[0] == b[0] && b[0] == c[0] {
      LessTransitive(a[1..], b[1..], c[1..]);
    }
  }

  lemma {:induction false} LessTotal(a: string, b: string)
    requires a != b
    ensures Less(a, b) || Less(b, a)
    decreases |a|
  {
    if |a| > 0 && |b| > 0 && a[0] == b[0] {
      assert a == [a[0]] + a[1..];
      assert b == [b[0]] + b[1..];
      LessTotal(a[1..], b[1..]);
    }
  }
}

=== FILE: teams.dfy ===
/** `nflfanfare/teams.py`: looking a team up by any of its names, the
    properties a found team exposes, a random hashtag, and the sorted list of
    team ids. */
module Teams {
  import opened Results
  import opened Seqs
  import opened Strings

  /** A stored team. `hashtags` may be missing. */
  datatype TeamDoc = TeamDoc(
    teamid: string,
    pfrid: string,
    username: string,
    teamcity: string,
    teamname: string,
    conference: string,
    division: string,
    colors: seq<string>,
    hashtags: Option<seq<string>>)

  /** The display name: city, a blank, nickname. */
  function FullName(d: TeamDoc): (r: string)
    ensures |r| == |d.teamcity| + 1 + |d.teamname|
    ensures r[..|d.teamcity|] == d.teamcity && r[|d.teamcity|] == ' ' && r[|d.teamcity| + 1..] == d.teamname
  {
    d.teamcity + " " + d.teamname
  }

  // ---------------------------------------------------------------------------
  // `Team._info`

  /** The identifier columns a query is tried against, in the order tried. */
  datatype Column = TeamIdCol | PfrIdCol | UsernameCol | FullNameCol | TeamNameCol

  const PRIORITY: seq<Column> := [TeamIdCol, PfrIdCol, UsernameCol, FullNameCol, TeamNameCol]

  function ColumnValue(d: TeamDoc, c: Column): string {
    match c
    case TeamIdCol => d.teamid
    case PfrIdCol => d.pfrid
    case UsernameCol => d.username
    case FullNameCol => FullName(d)
    case TeamNameCol => d.teamname
  }

  /** `match in list(df.<column>)`. */
  predicate InColumn(docs: seq<TeamDoc>, c: Column, query: string) {
    exists k :: 0 <= k < |docs| && ColumnValue(docs[k], c) == query
  }

  /** The position of a column in `PRIORITY`. */
  function Rank(c: Column): (n: nat)
    ensures n < |PRIORITY| && PRIORITY[n] == c
  {
    match c
    case TeamIdCol => 0
    case PfrIdCol => 1
    case UsernameCol => 2
    case FullNameCol => 3
    case TeamNameCol => 4
  }

  /** The column `_info` settles on: each test that succeeds overwrites the
      previous choice, so the last column (in `PRIORITY` order) holding the
      query wins; the tests are taken here from the last column back. */
  function ChosenColumn(docs: seq<TeamDoc>, query: string): (r: Option<Column>)
    ensures r.None? <==> forall c :: !InColumn(docs, c, query)
    ensures r.Some? ==> InColumn(docs, r.value, query)
    ensures r.Some? ==> forall c :: Rank(c) > Rank(r.value) ==> !InColumn(docs, c, query)
  {
    if InColumn(docs, TeamNameCol, query) then Some(TeamNameCol)
    else if InColumn(docs, FullNameCol, query) then Some(FullNameCol)
    else if InColumn(docs, UsernameCol, query) then Some(UsernameCol)
    else if InColumn(docs, PfrIdCol, query) then Some(PfrIdCol)
    else if InColumn(docs, TeamIdCol, query) then Some(TeamIdCol)
    else None
  }

  /** Why a team lookup raised. */
  datatype TeamsError =
    | NoTeamColumns      // a frame built from no documents has no `teamcity` column
    | NoHashtagsColumn   // no stored team has `hashtags`, so the frame has no such column
    | ChoiceOnNaN        // `random.choice` on the NaN that fills a missing hashtag list

  /** `_info`: the first team whose chosen column equals the query, or `None`
      when no column holds it. An empty collection raises. */
  function Info(docs: seq<TeamDoc>, query: string): (r: Result<Option<TeamDoc>, TeamsError>)
    ensures r.Err? <==> |docs| == 0
    ensures r.Ok? ==> (r.value.None? <==> ChosenColumn(docs, query).None?)
    ensures r.Ok? && r.value.Some? ==>
      r.value.value in docs && ColumnValue(r.value.value, ChosenColumn(docs, query).value) == query
    ensures r.Ok? && r.value.Some? ==>
      (exists k :: 0 <= k < |docs| && docs[k] == r.value.value &&
         forall j :: 0 <= j < k ==> ColumnValue(docs[j], ChosenColumn(docs, query).value) != query)
  {
    if |docs| == 0 then Err(NoTeamColumns)
    else
      match ChosenColumn(docs, query)
      case None => Ok(None)
      case Some(c) =>
        var i := FindFirst(docs, (d: TeamDoc) => ColumnValue(d, c) == query);
        Ok(Some(docs[i.value]))
  }

  /** A nickname always wins: a query that names a team by its nickname finds
      the first team with that nickname, whatever other column also holds it. */
  lemma NicknameWins(docs: seq<TeamDoc>, k: nat)
    requires k < |docs|
    ensures Info(docs, docs[k].teamname).Ok? && Info(docs, docs[k].teamname).value.Some?
    ensures Info(docs, docs[k].teamname).value.value.teamname == docs[k].teamname
  {
    assert ColumnValue(docs[k], TeamNameCol) == docs[k].teamname;
  }

  // ---------------------------------------------------------------------------
  // `Team.__init__` and `_properties`

  /** The properties of a `Team`; all stay `None` when the query matched nothing. */
  datatype TeamView = TeamView(
    teamid: Option<string>,
    pfrid: Option<string>,
    username: Option<string>,
    teamcity: Option<string>,
    teamname: Option<string>,
    fullname: Option<string>,
    conference: Option<string>,
    division: Option<string>,
    colors: Option<seq<string>>,
    hashtags: Hashtags)

  /** A team's `hashtags` property: `None` before a match, the NaN that the
      frame puts in a row whose document lacks the key, or the stored list. */
  datatype Hashtags = NoHashtags | NotANumber | Tags(tags: seq<string>)

  const EMPTY_VIEW: TeamView := TeamView(None, None, None, None, None, None, None, None, None, NoHashtags)

  /** Some stored team has a `hashtags` key, so the frame has that column. */
  predicate HasHashtagsColumn(docs: seq<TeamDoc>) {
    exists k :: 0 <= k < |docs| && docs[k].hashtags.Some?
  }

  /** The frame cell for a team's hashtags when the column exists. */
  function HashtagsCell(d: TeamDoc): Hashtags {
    if d.hashtags.None? then NotANumber else Tags(d.hashtags.value)
  }

  /** `Team(match)`: the properties of the team `_info` finds. An empty
      collection raises in `_info`; a match raises in `_properties` when no
      stored team has hashtags. */
  function Team(docs: seq<TeamDoc>, query: string): (r: Result<TeamView, TeamsError>)
    ensures r.Err? <==>
      |docs| == 0 || (Info(docs, query).value.Some? && forall k :: 0 <= k < |docs| ==> docs[k].hashtags.None?)
    ensures r.Err? ==> r.error == if |docs| == 0 then NoTeamColumns else NoHashtagsColumn
    ensures r.Ok? && Info(docs, query).value.None? ==> r.value == EMPTY_VIEW
    ensures r.Ok? && Info(docs, query).value.Some? ==>
      var d := Info(docs, query).value.value;
      var v := r.value;
      && v.teamid == Some(d.teamid) && v.pfrid == Some(d.pfrid) && v.username == Some(d.username)
      && v.teamcity == Some(d.teamcity) && v.teamname == Some(d.teamname)
      && v.fullname == Some(d.teamcity + " " + d.teamname)
      && v.conference == Some(d.conference) && v.division == Some(d.division)
      && v.colors == Some(d.colors)
      && (d.hashtags.Some? ==> v.hashtags == Tags(d.hashtags.value))
      && (d.hashtags.None? ==> v.hashtags == NotANumber)
  {
    match Info(docs, query)
    case Err(e) => Err(e)
    case Ok(None) => Ok(EMPTY_VIEW)
    case Ok(Some(d)) =>
      if !HasHashtagsColumn(docs) then Err(NoHashtagsColumn)
      else
        Ok(TeamView(Some(d.teamid), Some(d.pfrid), Some(d.username), Some(d.teamcity), Some(d.teamname),
                    Some(FullName(d)), Some(d.conference), Some(d.division), Some(d.colors), HashtagsCell(d)))
  }

  /** A found team's full name splits back into its city and nickname when the
      city has no blank. */
  lemma FullNameSplits(docs: seq<TeamDoc>, query: string)
    requires Info(docs, query).Ok? && Info(docs, query).value.Some?
    requires ' ' !in Info(docs, query).value.value.teamcity
    ensures Team(docs, query).Ok? ==>
      Split(Team(docs, query).value.fullname.value, ' ')[0] == Team(docs, query).value.teamcity.value
  {
    var d := Info(docs, query).value.value;
    assert d.teamcity + " " + d.teamname == d.teamcity + [' '] + d.teamname;
    SplitAtSeparator(d.teamcity, d.teamname, ' ');
  }

  /** `random_hashtag`: `None` for a team without hashtags (no match, or an
      empty list), otherwise the hashtag `pick` selects, standing for
      `random.choice`. NaN is truthy, and choosing from it raises. */
  function RandomHashtag(hashtags: Hashtags, pick: nat): (r: Result<Option<string>, TeamsError>)
    ensures r.Err? <==> hashtags.NotANumber?
    ensures r.Err? ==> r.error == ChoiceOnNaN
    ensures r.Ok? ==> (r.value.None? <==> hashtags.NoHashtags? || |hashtags.tags| == 0)
    ensures r.Ok? && r.value.Some? ==> r.value.value in hashtags.tags
  {
    match hashtags
    case NoHashtags => Ok(None)
    case NotANumber => Err(ChoiceOnNaN)
    case Tags(tags) => if |tags| == 0 then Ok(None) else Ok(Some(tags[pick % |tags|]))
  }

  /** Every hashtag of a team can come out. */
  lemma EveryHashtagReachable(hashtags: seq<string>, k: nat)
    requires k < |hashtags|
    ensures RandomHashtag(Tags(hashtags), k) == Ok(Some(hashtags[k]))
  {
  }

  /** A found team's hashtags can be drawn from iff its own document has the
      key: another team's list only creates the column, and this team's cell
      is then NaN. */
  lemma FoundTeamHashtags(docs: seq<TeamDoc>, query: string, pick: nat)
    requires Team(docs, query).Ok? && Info(docs, query).value.Some?
    ensures RandomHashtag(Team(docs, query).value.hashtags, pick).Ok? <==> Info(docs, query).value.value.hashtags.Some?
  {
  }

  // ---------------------------------------------------------------------------
  // `team_ids`

  predicate StrictlySorted(xs: seq<string>) {
    forall i, j :: 0 <= i < j < |xs| ==> Less(xs[i], xs[j])
  }

  /** A strictly sorted list repeats nothing. */
  lemma SortedDistinct(xs: seq<string>)
    requires StrictlySorted(xs)
    ensures forall i, j :: 0 <= i < j < |xs| ==> xs[i] != xs[j]
  {
    forall i, j | 0 <= i < j < |xs|
      ensures xs[i] != xs[j]
    {
      LessIrreflexive(xs[i]);
    }
  }

  lemma LessThanAll(x: string, xs: seq<string>)
    requires StrictlySorted(xs) && |xs| > 0 && Less(x, xs[0])
    ensures forall j :: 0 <= j < |xs| ==> Less(x, xs[j])
  {
    forall j | 0 < j < |xs|
      ensures Less(x, xs[j])
    {
      LessTransitive(x, xs[0], xs[j]);
    }
  }

  /** One step of `sorted(distinct(...))`: `x` added at its place, unless present. */
  function InsertSorted(xs: seq<string>, x: string): (r: seq<string>)
    requires StrictlySorted(xs)
    ensures StrictlySorted(r)
    ensures forall y :: y in r <==> y in xs || y == x
    decreases |xs|
  {
    if |xs| == 0 then [x]
    else if x == xs[0] then xs
    else if Less(x, xs[0]) then
      LessThanAll(x, xs);
      [x] + xs
    else
      LessTotal(x, xs[0]);
      var rest := InsertSorted(xs[1..], x);
      assert forall y :: y in rest ==> Less(xs[0], y);
      [xs[0]] + rest
  }

  /** `team_ids`: the distinct team ids, in increasing order. */
  function TeamIds(docs: seq<TeamDoc>): (r: seq<string>)
    ensures StrictlySorted(r)
    ensures forall t :: t in r <==> exists k :: 0 <= k < |docs| && docs[k].teamid == t
    decreases |docs|
  {
    if |docs| == 0 then []
    else
      var rest := TeamIds(docs[..|docs| - 1]);
      assert forall k :: 0 <= k < |docs| - 1 ==> docs[..|docs| - 1][k] == docs[k];
      InsertSorted(rest, docs[|docs| - 1].teamid)
  }

  /** Of two strictly sorted lists with the same elements, the first cannot
      start below the second. */
  lemma HeadNotBelow(a: seq<string>, b: seq<string>)
    requires StrictlySorted(a) && StrictlySorted(b)
    requires forall y :: y in a <==> y in b
    requires |a| > 0 && |b| > 0
    ensures !Less(b[0], a[0])
  {
    assert b[0] in a;
    var j :| 0 <= j < |a| && a[j] == b[0];
    if Less(b[0], a[0]) && j > 0 {
      LessTransitive(b[0], a[0], a[j]);
    }
    LessIrreflexive(b[0]);
  }

  /** Two strictly sorted lists with the same elements are equal, so the
      sorted, distinct list of ids is determined by the set of ids. */
  lemma {:induction false} SortedUnique(a: seq<string>, b: seq<string>)
    requires StrictlySorted(a) && StrictlySorted(b)
    requires forall y :: y in a <==> y in b
    ensures a == b
    decreases |a|
  {
    if |a| > 0 {
      assert a[0] in b;
    }
    if |b| > 0 {
      assert b[0] in a;
    }
    if |a| > 0 {
      HeadNotBelow(a, b);
      HeadNotBelow(b, a);
      if a[0] != b[0] {
        LessTotal(a[0], b[0]);
        assert false;
      }
      SortedDistinct(a);
      SortedDistinct(b);
      forall y
        ensures y in a[1..] <==> y in b[1..]
      {
        if y in a[1..] {
          var j :| 1 <= j < |a| && a[j] == y;
          assert y in a && y in b;
          var i :| 0 <= i < |b| && b[i] == y;
          assert i != 0;
        }
        if y in b[1..] {
          var j :| 1 <= j < |b| && b[j] == y;
          assert y in b && y in a;
          var i :| 0 <= i < |a| && a[i] == y;
          assert i != 0;
        }
      }
      SortedUnique(a[1..], b[1..]);
      assert a == [a[0]] + a[1..];
      assert b == [b[0]] + b[1..];
    }
  }

  /** The order in which teams are stored does not change the id list. */
  lemma TeamIdsIgnoreOrder(d1: seq<TeamDoc>, d2: seq<TeamDoc>)
    requires forall d :: d in d1 <==> d in d2
    ensures TeamIds(d1) == TeamIds(d2)
  {
    var r1, r2 := TeamIds(d1), TeamIds(d2);
    forall t
      ensures t in r1 <==> t in r2
    {
      if t in r1 {
        var k :| 0 <= k < |d1| && d1[k].teamid == t;
        assert d1[k] in d2;
      }
      if t in r2 {
        var k :| 0 <= k < |d2| && d2[k].teamid == t;
        assert d2[k] in d1;
      }
    }
    SortedUnique(r1, r2);
  }
}

=== FILE: tweet.dfy ===
/** `nflfanfare/tweet.py`: how a tweet from the search API and a scraped tweet
    are normalised into the fields that are stored. */
module Tweets {
  import opened Results
  import opened Seqs
  import opened Strings

  // ---------------------------------------------------------------------------
  // Field normalisation shared by both sources

  /** Backslash, double quote and single quote. */
  const QUOTES: set<char> := {'\\', '"', '\''}

  /** `re.sub(r'\\|\"|\'', '', s)`: the quote characters removed, every other
      character kept, in order and as often as before. */
  function StripQuotes(s: string): (r: string)
    ensures forall k :: 0 <= k < |r| ==> r[k] !in QUOTES
    ensures forall c :: c !in QUOTES ==> multiset(r)[c] == multiset(s)[c]
    ensures IsSubsequence(r, s)
    ensures (forall k :: 0 <= k < |s| ==> s[k] !in QUOTES) ==> r == s
  {
    if forall k :: 0 <= k < |s| ==> s[k] !in QUOTES then
      RemoveCharsNoOp(s, QUOTES);
      RemoveChars(s, QUOTES)
    else
      RemoveChars(s, QUOTES)
  }

  /** Stripping twice strips nothing more. */
  lemma StripQuotesIdempotent(s: string)
    ensures StripQuotes(StripQuotes(s)) == StripQuotes(s)
  {
  }

  /** `location if not location == '' else None`: the empty location is
      dropped; a missing one stays missing. */
  function OptionalLocation(location: Option<string>): (r: Option<string>)
    ensures r.None? <==> location.None? || location == Some("")
    ensures r.Some? ==> r == location
  {
    if location == Some("") then None else location
  }

  /** `','.join(texts) if len(texts) > 0 else None`. */
  function JoinOrNone(texts: seq<string>): (r: Option<string>)
    ensures r.None? <==> |texts| == 0
  {
    if |texts| > 0 then Some(Join(texts, ',')) else None
  }

  /** Round trip: when no text holds a comma, splitting the stored field on
      commas gives the texts back, in order. */
  lemma JoinOrNoneSplits(texts: seq<string>)
    requires |texts| > 0
    requires forall k :: 0 <= k < |texts| ==> ',' !in texts[k]
    ensures Split(JoinOrNone(texts).value, ',') == texts
  {
    SplitJoin(texts, ',');
  }

  // ---------------------------------------------------------------------------
  // `Tweet`: a search-API tweet

  datatype ApiUser = ApiUser(
    id: int,
    screenName: string,
    name: string,
    location: Option<string>,
    timeZone: Option<string>,
    profileImageUrl: string)

  /** The fields of an API payload that the record reads; `hasRetweetedStatus`
      records whether the key `retweeted_status` is present. */
  datatype ApiTweet = ApiTweet(
    id: int,
    user: ApiUser,
    text: string,
    lang: string,
    hashtags: seq<string>,
    mentions: seq<string>,
    hasRetweetedStatus: bool)

  /** Where a record came from; the scraped user id is a URL segment. */
  datatype Source = Api | Scraped
  datatype UserId = NumericId(n: int) | SegmentId(s: string) | NoUserId

  /** The stored tweet, without its timestamps and sentiment scores. */
  datatype TweetRecord = TweetRecord(
    tweetid: int,
    source: Source,
    userid: UserId,
    username: string,
    realname: string,
    userlocation: Option<string>,
    usertimezone: Option<string>,
    userprofileimg: string,
    tweettext: string,
    language: string,
    hashtags: Option<string>,
    usermentions: Option<string>,
    retweeted: bool)

  /** `Tweet.__init__`: names and text lose their quote characters, an empty
      location becomes `None`, hashtags and mentions are comma-joined (or
      `None` when there are none), and a tweet is a retweet exactly when it
      carries a retweeted status. */
  function FromApi(t: ApiTweet): (r: TweetRecord)
    ensures r.source == Api && r.tweetid == t.id && r.userid == NumericId(t.user.id)
    ensures forall k :: 0 <= k < |r.realname| ==> r.realname[k] !in QUOTES
    ensures forall k :: 0 <= k < |r.tweettext| ==> r.tweettext[k] !in QUOTES
    ensures IsSubsequence(r.realname, t.user.name) && IsSubsequence(r.tweettext, t.text)
    ensures r.userlocation.None? <==> t.user.location.None? || t.user.location == Some("")
    ensures r.hashtags.None? <==> |t.hashtags| == 0
    ensures r.usermentions.None? <==> |t.mentions| == 0
    ensures r.retweeted <==> t.hasRetweetedStatus
    ensures r.username == t.user.screenName && r.userprofileimg == t.user.profileImageUrl
    ensures r.realname == StripQuotes(t.user.name) && r.tweettext == StripQuotes(t.text)
    ensures r.userlocation == OptionalLocation(t.user.location) && r.usertimezone == t.user.timeZone
    ensures r.hashtags == JoinOrNone(t.hashtags) && r.usermentions == JoinOrNone(t.mentions)
    ensures r.language == t.lang
  {
    TweetRecord(
      t.id, Api, NumericId(t.user.id), t.user.screenName, StripQuotes(t.user.name),
      OptionalLocation(t.user.location), t.user.timeZone, t.user.profileImageUrl,
      StripQuotes(t.text), t.lang, JoinOrNone(t.hashtags), JoinOrNone(t.mentions),
      t.hasRetweetedStatus)
  }

  /** Round trip on the record: when the tweet has hashtags and none holds a
      comma, the stored field splits back into them, in order. */
  lemma ApiHashtagsSplit(t: ApiTweet)
    requires |t.hashtags| > 0
    requires forall k :: 0 <= k < |t.hashtags| ==> ',' !in t.hashtags[k]
    ensures Split(FromApi(t).hashtags.value, ',') == t.hashtags
  {
    JoinOrNoneSplits(t.hashtags);
  }

  // ---------------------------------------------------------------------------
  // `Scrape`: a tweet scraped from the web page

  /** One part of a scraped tweet text, with its two flags. */
  datatype TextPart = TextPart(text: string, isHashtag: bool, isMention: bool)

  datatype ScrapeInfo = ScrapeInfo(
    id: int,
    bannerUrl: Option<string>,
    screenName: string,
    displayName: string,
    location: Option<string>,
    avatarUrl: string,
    textString: string,
    lang: string,
    parts: seq<TextPart>,
    isRetweeted: bool)

  predicate IsHashtag(p: TextPart) {
    p.isHashtag
  }

  predicate IsMention(p: TextPart) {
    p.isMention
  }

  /** The texts of the flagged parts, in order. */
  function Texts(parts: seq<TextPart>, flag: TextPart -> bool): (r: seq<string>)
    ensures |r| == Count(parts, flag)
    ensures |r| == |Filter(parts, flag)|
    ensures forall i :: 0 <= i < |r| ==> r[i] == Filter(parts, flag)[i].text
    ensures |r| == 0 <==> forall k :: 0 <= k < |parts| ==> !flag(parts[k])
    ensures forall k :: 0 <= k < |parts| && flag(parts[k]) ==> parts[k].text in r
    ensures forall t :: t in r ==> exists k :: 0 <= k < |parts| && flag(parts[k]) && parts[k].text == t
  {
    var kept := Filter(parts, flag);
    var r := seq(|kept|, i requires 0 <= i < |kept| => kept[i].text);
    CountIsFilterLength(parts, flag);
    FlaggedTexts(parts, flag, r);
    r
  }

  /** A list holding the texts of the kept parts, index by index, holds the
      text of every flagged part and nothing else. */
  lemma FlaggedTexts(parts: seq<TextPart>, flag: TextPart -> bool, r: seq<string>)
    requires |r| == |Filter(parts, flag)|
    requires forall i :: 0 <= i < |r| ==> r[i] == Filter(parts, flag)[i].text
    ensures forall k :: 0 <= k < |parts| && flag(parts[k]) ==> parts[k].text in r
    ensures forall t :: t in r ==> exists k :: 0 <= k < |parts| && flag(parts[k]) && parts[k].text == t
  {
    var kept := Filter(parts, flag);
    forall k | 0 <= k < |parts| && flag(parts[k])
      ensures parts[k].text in r
    {
      assert parts[k] in kept;
      var i :| 0 <= i < |kept| && kept[i] == parts[k];
      assert r[i] == parts[k].text;
    }
    forall t | t in r
      ensures exists k :: 0 <= k < |parts| && flag(parts[k]) && parts[k].text == t
    {
      var i :| 0 <= i < |r| && r[i] == t;
      assert kept[i] in parts;
      var k :| 0 <= k < |parts| && parts[k] == kept[i];
      assert flag(parts[k]);
    }
  }

  /** `bannerUrl.split('/')[4]`: the user id segment of a banner URL. A URL
      with fewer than five segments makes the index fail. */
  function BannerUserId(bannerUrl: string): (r: Option<string>)
    ensures r.Some? <==> |Split(bannerUrl, '/')| >= 5
    ensures r.Some? ==> '/' !in r.value
  {
    SplitPiecesFree(bannerUrl, '/');
    var parts := Split(bannerUrl, '/');
    if |parts| >= 5 then Some(parts[4]) else None
  }

  /** Round trip: the user id placed after the four leading segments of a
      banner URL (scheme, empty, host, "profile_banners") is read back. */
  lemma BannerUserIdOf(scheme: string, host: string, dir: string, id: string, rest: string)
    requires '/' !in scheme && '/' !in host && '/' !in dir && '/' !in id
    ensures BannerUserId(scheme + "//" + host + "/" + dir + "/" + id + "/" + rest) == Some(id)
  {
    var p4 := id + ['/'] + rest;
    var p3 := dir + ['/'] + p4;
    var p2 := host + ['/'] + p3;
    var p1 := "" + ['/'] + p2;
    var url := scheme + ['/'] + p1;
    assert scheme + "//" + host + "/" + dir + "/" + id + "/" + rest == url;
    SplitAtSeparator(id, rest, '/');
    SplitAtSeparator(dir, p4, '/');
    SplitAtSeparator(host, p3, '/');
    SplitAtSeparator("", p2, '/');
    SplitAtSeparator(scheme, p1, '/');
    assert Split(url, '/') == [scheme, "", host, dir, id] + Split(rest, '/');
  }

  datatype ScrapeError = ShortBannerUrl(bannerUrl: string)

  /** `Scrape.__init__`: the user id comes from the banner URL (none without
      one); hashtags and mentions are the comma-joined flagged parts, the empty
      string when there are none; the text is stored as scraped. */
  function FromScrape(info: ScrapeInfo): (r: Result<TweetRecord, ScrapeError>)
    ensures r.Err? <==> info.bannerUrl.Some? && BannerUserId(info.bannerUrl.value).None?
    ensures r.Ok? ==> r.value.source == Scraped && r.value.tweetid == info.id
    ensures r.Ok? && info.bannerUrl.None? ==> r.value.userid == NoUserId
    ensures r.Ok? && info.bannerUrl.Some? ==> r.value.userid == SegmentId(BannerUserId(info.bannerUrl.value).value)
    ensures r.Ok? ==> r.value.hashtags.Some? && r.value.usermentions.Some?
    ensures r.Ok? && (forall k :: 0 <= k < |info.parts| ==> !info.parts[k].isHashtag) ==> r.value.hashtags == Some("")
    ensures r.Ok? && (forall k :: 0 <= k < |info.parts| ==> !info.parts[k].isMention) ==> r.value.usermentions == Some("")
    ensures r.Ok? ==> r.value.tweettext == info.textString && r.value.retweeted == info.isRetweeted
    ensures r.Ok? ==> r.value.username == info.screenName && r.value.realname == info.displayName
    ensures r.Ok? ==> r.value.userlocation == info.location && r.value.usertimezone.None?
    ensures r.Ok? ==> r.value.userprofileimg == info.avatarUrl && r.value.language == info.lang
    ensures r.Ok? ==> r.value.hashtags == Some(Join(Texts(info.parts, IsHashtag), ','))
    ensures r.Ok? ==> r.value.usermentions == Some(Join(Texts(info.parts, IsMention), ','))
  {
    var userid :=
      if info.bannerUrl.None? then Ok(NoUserId)
      else match BannerUserId(info.bannerUrl.value)
        case None => Err(ShortBannerUrl(info.bannerUrl.value))
        case Some(id) => Ok(SegmentId(id));
    if userid.Err? then Err(userid.error)
    else
      Ok(TweetRecord(
        info.id, Scraped, userid.value, info.screenName, info.displayName, info.location, None,
        info.avatarUrl, info.textString, info.lang,
        Some(Join(Texts(info.parts, IsHashtag), ',')),
        Some(Join(Texts(info.parts, IsMention), ',')),
        info.isRetweeted))
  }

  /** Round trip: when some part is a hashtag and no hashtag text holds a
      comma, the stored field splits back into the hashtag texts. */
  lemma ScrapedHashtagsSplit(info: ScrapeInfo)
    requires exists k :: 0 <= k < |info.parts| && info.parts[k].isHashtag
    requires forall k :: 0 <= k < |info.parts| && info.parts[k].isHashtag ==> ',' !in info.parts[k].text
    ensures FromScrape(info).Ok? ==> Split(FromScrape(info).value.hashtags.value, ',') == Texts(info.parts, IsHashtag)
  {
    var ts := Texts(info.parts, IsHashtag);
    var j :| 0 <= j < |info.parts| && info.parts[j].isHashtag;
    assert IsHashtag(info.parts[j]);
    forall i | 0 <= i < |ts|
      ensures ',' !in ts[i]
    {
      assert ts[i] in ts;
      var k :| 0 <= k < |info.parts| && IsHashtag(info.parts[k]) && info.parts[k].text == ts[i];
    }
    SplitJoin(ts, ',');
  }
}

=== FILE: variants.dfy ===
/** How the two status classifiers of the system relate: the one used for the
    games table (kickoff-based thresholds, with a "starting" phase) and the
    one used for the schedule (pregame-based thresholds, without it). */
module Variants {
  import opened Results
  import opened Clock
  import Games
  import Schedule

  /** Long before kickoff-minus-one-hour both report "historic"... */
  lemma BothHistoric(start: Instant, now: Instant, localNow: Instant)
    requires start < now - WEEK
    ensures Games.State(start, now, localNow) == Some(Historic)
    ensures Schedule.GameStatus(start, now, localNow) == Some(Historic)
  {
  }

  /** ...but in the last hour of the week the schedule already says "historic"
      while the games table still says "recent". */
  lemma ScheduleHistoricAnHourEarlier(start: Instant, now: Instant, localNow: Instant)
    requires now - WEEK < start < now - WEEK + HOUR
    ensures Games.State(start, now, localNow) == Some(Recent)
    ensures Schedule.GameStatus(start, now, localNow) == Some(Historic)
  {
  }

  /** Once kicked off and within four hours, both report "live". */
  lemma BothLive(start: Instant, now: Instant, localNow: Instant)
    requires now - POSTGAME_LAG < start < now
    ensures Games.State(start, now, localNow) == Some(Live)
    ensures Schedule.GameStatus(start, now, localNow) == Some(Live)
  {
  }

  /** In the hour before kickoff the schedule already reports "live", while
      the games table reports "starting" for the last quarter hour and
      "upcoming" before that. */
  lemma ScheduleLiveBeforeKickoff(start: Instant, now: Instant, localNow: Instant)
    requires now < start < now + HOUR
    ensures Schedule.GameStatus(start, now, localNow) == Some(Live)
    ensures Games.State(start, now, localNow) == (if start < now + 15 * MINUTE then Some(Starting) else Some(Upcoming))
  {
  }

  /** At the instant of kickoff the games table has no phase unless the local
      clock is behind, in which case it says "pending". */
  lemma KickoffInstantUnclassified(now: Instant, localNow: Instant)
    ensures Games.State(now, now, localNow) == (if localNow < now then Some(Pending) else None)
  {
  }

  /** Mixing clocks: a game at least an hour away is "pending" only while the
      local clock is before kickoff, so a local clock running ahead of the UTC
      clock leaves such a game with no phase at all. */
  lemma LocalClockAheadLosesPending(start: Instant, now: Instant, localNow: Instant)
    requires now + HOUR <= start <= localNow
    ensures Games.State(start, now, localNow).None?
    ensures start >= now + 2 * HOUR && start - PREGAME_LEAD <= localNow ==> Schedule.GameStatus(start, now, localNow).None?
  {
  }

  /** The smallest such case: a game two hours away, local clock three hours
      ahead of UTC. */
  lemma LocalClockAheadExample()
    ensures Games.State(2 * HOUR, 0, 3 * HOUR).None?
    ensures Schedule.GameStatus(2 * HOUR, 0, 3 * HOUR).None?
  {
    LocalClockAheadLosesPending(2 * HOUR, 0, 3 * HOUR);
  }

  /** Exactly one week before now no test of the games table fires, so while
      the two clocks are less than a day apart such a game has no phase; the
      schedule has the same hole an hour later, when the pregame instant is
      exactly one week old. */
  lemma WeekBoundaryUnclassified(now: Instant, localNow: Instant)
    requires -DAY < localNow - now < DAY
    ensures Games.State(now - WEEK, now, localNow).None?
    ensures Schedule.GameStatus(now - WEEK + PREGAME_LEAD, now, localNow).None?
  {
  }
}
